=== FILE: README.md ===
# tmuxdir, modelled in Dafny

tmuxdir is a Neovim/Vim plugin that keeps a list of project directories and
opens each project in its own tmux session. A project is a directory that
holds a root marker such as `.git`. This model covers the plugin's core:

- **The directory manager** (`DirMngr`). It keeps the bookmarked project
  directories and the ignored ones, and persists both after every successful change.
  It finds projects below a directory with a bounded-depth glob search and
  lists the projects under the configured base directories and the
  bookmarks.
- **Session naming** (`dir_to_session_name`). It derives a tmux session name
  from a project directory: the shortest trailing run of path segments that
  is not a project key, with dots replaced by dashes.
- **The tmux facade** (`TmuxSessionFacade`). It lists, creates, switches to
  and kills sessions through the `tmux` command line and parses the
  `list-sessions` output.
- **The "open" action**. It puts these together: name the session, create it
  unless it is listed, then switch to it.

Layout, one module per file:

| file | module | models |
|---|---|---|
| `wrappers.dfy` | `Wrappers` | `Option` and `Result` |
| `paths.dfy` | `Paths` | `str.split` / `str.join` on `/`, the parent of a path, the trailing-separator strip |
| `text.dfy` | `Text` | `str.strip`, `str.split()` and `str.splitlines()` |
| `project_scanner.dfy` | `ProjectScanner` | `DirMngr.find_projects` |
| `dir_mngr.dfy` | `DirManager` | the rest of `DirMngr`, as a class whose methods update its fields |
| `dir_mngr_scenarios.dfy` | `DirMngrScenarios` | the directory manager's unit tests, as clients of the class |
| `session_name.dfy` | `SessionName` | `TmuxDirFacade.dir_to_session_name` |
| `tmux_session_facade.dfy` | `TmuxSessionFacade` | `TmuxSessionFacade` and its exceptions |
| `open_project.dfy` | `OpenProject` | the `open` action of the `tmux_dir` kind |

The environment is passed in as values:

- **Filesystem.** A `FileSystem` value holds the set of existing
  directories and `pathlib.Path.glob` as a function from a root and a
  pattern to the paths found. The ghost predicate `GlobSound` states what a
  real glob returns, for a subset of the roots that `pathlib` prints back
  unchanged (`NormalRoot`) and for markers without `/`, `*`, `?` or `[` (`PlainMarker`).
  For such markers each pattern names one depth and one marker
  (`PatternInjective`), and `TwoLevelFound` exhibits a filesystem that meets
  `GlobSound` with a project two levels down. Only the lemmas that need
  `GlobSound` assume it.
- **Persistence.** The configuration file is a ghost field `stored`, holding
  the snapshot last written, plus a ghost count `saves` of the writes.
  Loading takes the stored snapshot as a parameter.
- **tmux.** A `tmux` process is a function `run` from an argument vector to
  its outcome: it exited with some stdout and stderr, or it could not be
  started. The environment is a map. Every facade operation returns the
  commands it issued together with its result or error.

Strings are `seq<char>`. Dictionary
truthiness (`d.get(k)`) is the predicate `Truthy`: the key is present and
its value is non-empty. This keeps the source's quirk that an entry whose
value is `""` counts as absent.

## Model

| member | source | states |
|---|---|---|
| `ProjectScanner.Projects` | rplugin/python3/tmuxdir/dirmngr.py:46-86 | defines `find_projects`: `[]` for a root that is not a directory, otherwise `Search` from depth 1 under the root with one trailing `/` stripped; `ProjectsEager`, `ProjectsLazy`, `ProjectsAreHitParents` and `ProjectShape` state what it returns |
| `ProjectScanner.Search` | rplugin/python3/tmuxdir/dirmngr.py:63-84 | defines `_find_projects`: append depth `cur`'s projects, then stop at the last depth, stop when not eager and something was found, or recurse one level deeper; `EagerSearch`, `LazySearch` and `InSearch` state its results |
| `ProjectScanner.IsDirSound` | rplugin/python3/tmuxdir/dirmngr.py:52-53 | the empty path is never a directory, as `os.path.isdir("")` is false |
| `ProjectScanner.EmptyRootFindsNothing` | rplugin/python3/tmuxdir/dirmngr.py:52-61 | supports the `ProjectScanner.Projects` line under "Left out" rather than stating a property of the search: on such a filesystem a search that finds anything started from a non-empty directory, so `_remove_path_sep` never indexes an empty root |
| `ProjectScanner.FindProjects` | rplugin/python3/tmuxdir/dirmngr.py:46-86 | returns exactly the search `Projects` defines (glob each marker at depth 1, 2, … and keep each hit's parent); a root that is not a directory gives `[]` |
| `ProjectScanner.AppendLevel` | rplugin/python3/tmuxdir/dirmngr.py:71-76 | the marker loop appends to the accumulated list exactly the parents of that depth's hits, marker by marker in order |
| `ProjectScanner.AppendParents` | rplugin/python3/tmuxdir/dirmngr.py:75-76 | the glob loop appends, in glob order, each hit with its last path segment dropped |
| `ProjectScanner.ProjectsEager` | rplugin/python3/tmuxdir/dirmngr.py:77-84 | an eager search returns the parents found at every depth from 1 to `depth`, shallowest first, below the root with one trailing `/` stripped |
| `ProjectScanner.FirstProductive` | rplugin/python3/tmuxdir/dirmngr.py:77-81 | the depth where a non-eager search stops: no shallower depth found anything, and it found something unless it is the maximum depth |
| `ProjectScanner.ProjectsLazy` | rplugin/python3/tmuxdir/dirmngr.py:77-84 | a non-eager search returns only the projects of the first depth that has any, and searches no deeper |
| `ProjectScanner.ProjectsAreHitParents` | rplugin/python3/tmuxdir/dirmngr.py:52-76 | every project found implies the root is a directory and is the parent of some glob hit for some marker at some depth within the bound |
| `ProjectScanner.ProjectShape` | rplugin/python3/tmuxdir/dirmngr.py:72-76 | with a sound glob, a root in normal form and plain markers, a project found at depth d is the parent of a path d segments below the root whose last segment ends with a marker; for a non-empty root (any root but `/`), that parent, `/` and that segment rebuild the hit |
| `ProjectScanner.PatternInjective` | rplugin/python3/tmuxdir/dirmngr.py:72-74 | for markers without `/`, the glob expression built for depth d and a marker determines both: equal expressions mean equal depths and equal markers |
| `ProjectScanner.TwoLevelFsSound` | rplugin/python3/tmuxdir/dirmngr.py:72-75 | a glob that reports `r/a/.git` for `*/*.git` under `r` and nothing else meets `GlobSound`, so soundness does not rule out hits below depth 1 |
| `ProjectScanner.TwoLevelFound` | rplugin/python3/tmuxdir/dirmngr.py:46-86 | with the default depth 3 and eager search, `find_projects("r", [".git"])` on that filesystem returns exactly `["r/a"]`, the parent of the depth-2 hit |
| `Paths.DropLastParent` | rplugin/python3/tmuxdir/dirmngr.py:76 | dropping the last segment gives the parent: parent + `/` + last segment is the path again, and the parent's segments are all but the last |
| `Paths.StripSep` | rplugin/python3/tmuxdir/dirmngr.py:57-61 | a path ending in `/` loses exactly that one separator; any other path is unchanged |
| `Text.Words` | rplugin/python3/tmuxdir/tmux_session_facade.py:63 | whitespace splitting yields only non-empty words without whitespace |
| `Text.WordsJoin` | rplugin/python3/tmuxdir/tmux_session_facade.py:59-63 | splitting words joined by single spaces gives the words back |
| `Text.Strip` | rplugin/python3/tmuxdir/tmux_session_facade.py:63 | the stripped line is no longer than the line and neither starts nor ends with whitespace; `StripSlice` states that it is the line's slice between a whitespace prefix and a whitespace suffix |
| `Text.StripSlice` | rplugin/python3/tmuxdir/tmux_session_facade.py:63 | `strip()` returns `s[i:j]` for some `i <= j` where everything before `i` and from `j` on is whitespace; with the contract of `Strip`, that is the longest such slice |
| `Text.WordsStrip` | rplugin/python3/tmuxdir/tmux_session_facade.py:63 | stripping before whitespace splitting does not change the words |
| `Text.Lines` | rplugin/python3/tmuxdir/tmux_session_facade.py:62 | line splitting yields lines without line breaks |
| `Text.LinesTerminated` | rplugin/python3/tmuxdir/tmux_session_facade.py:62 | splitting lines that each end in a newline gives the lines back |
| `DirManager.NonExisting` | rplugin/python3/tmuxdir/dirmngr.py:91-92 | `_get_non_existing_dirs`: exactly the loaded keys that are not directories, each mapped to itself |
| `DirManager.Inserted` | rplugin/python3/tmuxdir/dirmngr.py:125-138 | defines the bookmarks after `_add` of each path in turn; `AddAgainKeepsDirs`, `InsertedNothingNew` and `InsertedStep` state its properties |
| `DirManager.SaveCount` | rplugin/python3/tmuxdir/dirmngr.py:130-138 | defines how many of those `_add` calls write the store; `SaveCountZero` and `RepeatAddSavesNothing` state when it is zero |
| `DirManager.Prune` | rplugin/python3/tmuxdir/dirmngr.py:91-107 | the loaded map keeps exactly the entries whose key is an existing directory, with their values |
| `DirManager.ReloadRestores` | rplugin/python3/tmuxdir/dirmngr.py:88-117 | loading what was saved restores both maps when every key is still a directory |
| `DirManager.AddAgainKeepsDirs` | rplugin/python3/tmuxdir/dirmngr.py:119-138 | adding the same paths again leaves the bookmarks unchanged (`add` is idempotent) |
| `DirManager.InsertedNothingNew` | rplugin/python3/tmuxdir/dirmngr.py:133-134 | adding only paths that are already bookmarked changes nothing |
| `DirManager.SaveCountZero` | rplugin/python3/tmuxdir/dirmngr.py:133-137 | adding paths writes nothing exactly when every one of them is already bookmarked |
| `DirManager.RepeatAddSavesNothing` | rplugin/python3/tmuxdir/dirmngr.py:130-138 | adding the same non-empty paths a second time writes nothing |
| `DirManager.AddedStep` | rplugin/python3/tmuxdir/dirmngr.py:125-138 | one more `_add` extends the bookmarks, the write count and the stored snapshot as adding the whole sequence so far does |
| `DirManager.ToList` | rplugin/python3/tmuxdir/dirmngr.py:188 | `list(set)` holds each element of the set exactly once |
| `DirManager.KeepVisible` | rplugin/python3/tmuxdir/dirmngr.py:185-187 | the collected set grows by exactly the walked projects that are not ignored |
| `DirManager.DirMngr.constructor` | rplugin/python3/tmuxdir/dirmngr.py:25-44 | starts from the base directories and markers, loads both maps from the store keeping existing directories only, and writes back once when something was stored |
| `DirManager.DirMngr.LoadDirs` | rplugin/python3/tmuxdir/dirmngr.py:88-109 | each map is replaced by its pruned stored value when that value is non-empty and kept otherwise; a non-empty store is written back once |
| `DirManager.DirMngr.SaveDirs` | rplugin/python3/tmuxdir/dirmngr.py:111-117 | the store becomes the snapshot of both maps, with one more write, and the maps are unchanged |
| `DirManager.DirMngr.AddOne` | rplugin/python3/tmuxdir/dirmngr.py:130-138 | returns its argument and bookmarks it; an already bookmarked path changes nothing and writes nothing, a new one is inserted and written once |
| `DirManager.DirMngr.Add` | rplugin/python3/tmuxdir/dirmngr.py:119-128 | an ignored path returns `[]` and changes nothing; otherwise returns the projects found below it, all of them bookmarked, with one write per new bookmark |
| `DirManager.DirMngr.AddEach` | rplugin/python3/tmuxdir/dirmngr.py:125-128 | returns the found paths in order, inserts each one and writes once per path that was new |
| `DirManager.DirMngr.ClearAddedDir` | rplugin/python3/tmuxdir/dirmngr.py:140-145 | succeeds exactly when the path was bookmarked (truthy); removes it either way and writes only on success |
| `DirManager.DirMngr.ClearAddedDirs` | rplugin/python3/tmuxdir/dirmngr.py:147-151 | empties the bookmarks, keeps the ignored paths, writes once and returns true |
| `DirManager.DirMngr.Ignore` | rplugin/python3/tmuxdir/dirmngr.py:153-161 | always returns true and marks the path ignored; writes only when it was not already ignored |
| `DirManager.DirMngr.ClearIgnoredDir` | rplugin/python3/tmuxdir/dirmngr.py:163-168 | succeeds exactly when the path was ignored (truthy); removes it either way and writes only on success |
| `DirManager.DirMngr.ClearIgnoredDirs` | rplugin/python3/tmuxdir/dirmngr.py:170-174 | empties the ignored paths, keeps the bookmarks, writes once and returns true |
| `DirManager.DirMngr.ListDirs` | rplugin/python3/tmuxdir/dirmngr.py:176-188 | lists, without duplicates, exactly the non-ignored projects found below some base directory or bookmark |
| `DirMngrScenarios.AddDir` | rplugin/python3/tmuxdir/test_dirmngr.py:47-50 | adding the repository returns it first and bookmarks it; adding a path that is not a directory returns `[]` |
| `DirMngrScenarios.AddClear` | rplugin/python3/tmuxdir/test_dirmngr.py:56-61 | add returns `[repo]`, clearing it succeeds, nothing is listed, clearing an unknown path fails, and the repository is no longer bookmarked |
| `DirMngrScenarios.ClearAdded` | rplugin/python3/tmuxdir/test_dirmngr.py:63-67 | after adding and clearing the repository, no bookmark is left in memory or in the store |
| `DirMngrScenarios.AddIgnore` | rplugin/python3/tmuxdir/test_dirmngr.py:69-73 | once the repository is ignored, adding it returns `[]` and it is not listed |
| `DirMngrScenarios.ClearIgnored` | rplugin/python3/tmuxdir/test_dirmngr.py:75-80 | after ignoring the repository and clearing all ignored paths, none is left in memory or in the store |
| `SessionName.ProjectsDict` | rplugin/python3/tmuxdir/tmuxdir_facade.py:42-47 | defines `projects_dict` over the listed paths, `None` on its `IndexError`; `ProjectsDictFails`, `ProjectsDictKeys` and `ProjectsDictLastWins` state its result |
| `SessionName.NameFor` | rplugin/python3/tmuxdir/tmuxdir_facade.py:53-59 | defines the candidate loop and its fallback for given keys; `NameIsShortestFree`, `NameFallsBack`, `NameHasNoDots` and `NameEmptyOnlyForEmptyPath` state its result |
| `SessionName.DirToSessionName` | rplugin/python3/tmuxdir/tmuxdir_facade.py:37-59 | defines `dir_to_session_name` given what `list_dirs()` returned: `NameFor` over the project keys, `None` when they cannot be built; `DirToSessionNameFails` and `SameNameSharesSession` state its behaviour |
| `SessionName.SecondLast` | rplugin/python3/tmuxdir/tmuxdir_facade.py:45 | a path has a second-to-last segment exactly when it contains `/`, and that segment contains no `/` |
| `SessionName.ProjectsDictFails` | rplugin/python3/tmuxdir/tmuxdir_facade.py:42-47 | building the project keys fails (`IndexError`) exactly when some listed path has no `/` |
| `SessionName.ProjectsDictKeys` | rplugin/python3/tmuxdir/tmuxdir_facade.py:42-47 | the project keys are exactly the second-to-last segments of the listed paths |
| `SessionName.ProjectsDictLastWins` | rplugin/python3/tmuxdir/tmuxdir_facade.py:42-47 | each entry is named by its key and starts in the last listed path with that key |
| `SessionName.ReplaceDots` | rplugin/python3/tmuxdir/tmuxdir_facade.py:49-51 | same length, no dot left, every other character kept in place |
| `SessionName.FirstFree` | rplugin/python3/tmuxdir/tmuxdir_facade.py:55-58 | the loop returns the fewest trailing segments whose join is non-empty and not a key, trying 1 up to one less than the number of segments |
| `SessionName.DirToSessionNameFails` | rplugin/python3/tmuxdir/tmuxdir_facade.py:37-59 | naming fails exactly when building the project keys fails |
| `SessionName.NameHasNoDots` | rplugin/python3/tmuxdir/tmuxdir_facade.py:49-59 | the name contains no dot and is as long as some trailing run of segments or the whole path |
| `SessionName.NameIsShortestFree` | rplugin/python3/tmuxdir/tmuxdir_facade.py:55-58 | when a free candidate exists, the name is the shortest free trailing run with dots replaced, and every shorter run is empty or a key |
| `SessionName.NameFallsBack` | rplugin/python3/tmuxdir/tmuxdir_facade.py:55-59 | when no tried candidate is free, the name is the whole path with dots replaced |
| `SessionName.WholePathNotChecked` | rplugin/python3/tmuxdir/tmuxdir_facade.py:55-59 | the whole path is never tried as a candidate: a one-segment path that is itself a key, and a two-segment path whose join is a key, still get that key as their name |
| `SessionName.SameNameSharesSession` | rplugin/python3/tmuxdir/tmuxdir_facade.py:44-58 | the keys are the names of the projects' parent directories, so `/a/x/proj` and `/b/y/proj` both get the session name `proj` |
| `SessionName.NameOfAbsolute` | rplugin/python3/tmuxdir/tmuxdir_facade.py:55-58 | a path `/x/y/z` is named after `z` whenever `z` is non-empty and not a key |
| `SessionName.KeysOfTwo` | rplugin/python3/tmuxdir/tmuxdir_facade.py:42-47 | the keys of two projects `/a/x/z` and `/b/y/z` are their parents' names `x` and `y` |
| `SessionName.NameEmptyOnlyForEmptyPath` | rplugin/python3/tmuxdir/tmuxdir_facade.py:55-59 | the name is empty exactly when the path is empty |
| `SessionName.CandidateIsSuffix` | rplugin/python3/tmuxdir/tmuxdir_facade.py:56 | every candidate is a suffix of the path |
| `TmuxSessionFacade.RunCmd` | rplugin/python3/tmuxdir/tmux_session_facade.py:128-143 | issues the one command; succeeds with its stdout exactly when it ran with empty stderr; otherwise a facade error carrying the stderr or the OS error message |
| `TmuxSessionFacade.Sessions` | rplugin/python3/tmuxdir/tmux_session_facade.py:51-67 | issues only `list-sessions` with the three-field format; the line loop's result is the parse of the output's lines |
| `TmuxSessionFacade.SessionsOf` | rplugin/python3/tmuxdir/tmux_session_facade.py:51-67 | defines what `sessions()` returns: the listing command's error, or the parse of its output's lines; `Sessions` is proved equal to it |
| `TmuxSessionFacade.ParseLine` | rplugin/python3/tmuxdir/tmux_session_facade.py:63-66 | defines one iteration of the loop, including the `ValueError` of `int()` in the `TmuxSession` constructor (line 28); `ParseLineFields` states its result |
| `TmuxSessionFacade.ParseLineFields` | rplugin/python3/tmuxdir/tmux_session_facade.py:63-66 | a line parses exactly when it has three fields and the second is an integer literal; the session holds those fields in order; otherwise the error is the three-field message, or a `ValueError` for the second field |
| `TmuxSessionFacade.IntLiteral` | rplugin/python3/tmuxdir/tmux_session_facade.py:28 | defines the words `int()` accepts in base 10: an optional sign, then digits with single underscores between them |
| `TmuxSessionFacade.ParseLines` | rplugin/python3/tmuxdir/tmux_session_facade.py:62-66 | defines the line loop: a later line overwrites an earlier one with the same name, and the first bad line raises; `ParseFailsIff`, `ParsedNames`, `ParsedLastWins` and `ListingRoundTrip` state its result |
| `TmuxSessionFacade.ParseFailsAt` | rplugin/python3/tmuxdir/tmux_session_facade.py:62-66 | once a prefix of the lines fails, the whole listing fails with that prefix's error, because no later line is read |
| `TmuxSessionFacade.ParseFailsIff` | rplugin/python3/tmuxdir/tmux_session_facade.py:62-66 | parsing fails exactly when some line does not parse, and then with the error of the first such line |
| `TmuxSessionFacade.IsAttached` | rplugin/python3/tmuxdir/tmux_session_facade.py:69-73 | defines `is_attached`: `TMUX` is set and non-empty; `Switch`'s contract states what follows from it |
| `TmuxSessionFacade.ParsedNames` | rplugin/python3/tmuxdir/tmux_session_facade.py:62-66 | the parsed sessions are keyed by exactly the first words of the lines |
| `TmuxSessionFacade.ParsedLastWins` | rplugin/python3/tmuxdir/tmux_session_facade.py:62-66 | each session is the one parsed from the last line with its name |
| `TmuxSessionFacade.ParseFormatLine` | rplugin/python3/tmuxdir/tmux_session_facade.py:59-66 | a line in the `list-sessions` format, with an integer creation time, parses back to the session it shows |
| `TmuxSessionFacade.ListingRoundTrip` | rplugin/python3/tmuxdir/tmux_session_facade.py:54-66 | parsing the listing of plain sessions (whitespace-free fields, an integer creation time) gives back the sessions keyed by name, the last of a name winning |
| `TmuxSessionFacade.Create` | rplugin/python3/tmuxdir/tmux_session_facade.py:75-97 | issues one `new-session -d -c dir -s name vim` command, with `-c args` appended exactly when the editor arguments are non-empty; fails as that command fails |
| `TmuxSessionFacade.Switch` | rplugin/python3/tmuxdir/tmux_session_facade.py:99-108 | outside tmux it issues nothing and fails with the not-attached message; inside it issues `switch-client -t name` and fails as that fails |
| `TmuxSessionFacade.Kill` | rplugin/python3/tmuxdir/tmux_session_facade.py:110-114 | issues `kill-session -t name` and fails as that fails |
| `TmuxSessionFacade.CheckTmuxBin` | rplugin/python3/tmuxdir/tmux_session_facade.py:116-126 | issues `tmux -V`; true exactly when it ran with empty stderr; otherwise the bin error with the not-found message |
| `OpenProject.ClassOf` | rplugin/python3/tmuxdir/tmuxdir_facade.py:10-16 | no error raised is a `TmuxDirFacadeException`; only a bin error is a `TmuxFacadeBinException`; only the creation time's `ValueError` is outside the facade classes |
| `OpenProject.Opened` | rplugin/python3/denite/kind/tmux_dir.py:29-45 | defines what `action_open` issues and how it ends, for the class its `except` names; `OpenIssuesTmuxOnly`, `OpenCreatesOnlyUnlisted`, `UnattachedSwitchEscapes` and `SwitchErrorShown` state its behaviour |
| `OpenProject.ActionOpen` | rplugin/python3/denite/kind/tmux_dir.py:29-45 | issues and ends exactly as `Opened` says: name, list, create when unlisted, then switch, with the switch's error shown or raised as the `except` class decides |
| `OpenProject.OpenIssuesTmuxOnly` | rplugin/python3/denite/kind/tmux_dir.py:29-45 | every command the action issues is a `tmux` command |
| `OpenProject.OpenCreatesOnlyUnlisted` | rplugin/python3/denite/kind/tmux_dir.py:36-41 | once the sessions are listed, a `new-session` is issued exactly when the name is not listed, right after the listing, for that name and directory |
| `OpenProject.UnattachedSwitchEscapes` | rplugin/python3/denite/kind/tmux_dir.py:42-45 | as written, opening a listed session from outside tmux raises the not-attached error instead of showing it |
| `OpenProject.SwitchErrorShown` | rplugin/python3/denite/kind/tmux_dir.py:42-45 | when the handler names the base class, the action finishes exactly when listing (and creating, for an unlisted name) succeeds, and it shows precisely the switch's error |

## Findings

| source | as written | input that shows it | evidently intended | confidence | as-written member | corrected member |
|---|---|---|---|---|---|---|
| rplugin/python3/denite/kind/tmux_dir.py:42-45 | the switch is wrapped in `except TmuxDirFacadeException`. `switch` raises the base class `TmuxFacadeException`, which that subclass handler does not catch, so the error escapes `action_open` | a project whose session is listed, opened from an editor running outside tmux (`TMUX` unset) | catch `TmuxFacadeException` and show the switch's error to the user | high, by class hierarchy; not executed | `OpenProject.UnattachedSwitchEscapes` | `OpenProject.SwitchErrorShown` |

`SessionName.SameNameSharesSession` records a related behaviour of
`dir_to_session_name`. It is not listed as a finding because the intended
rule is unclear. The project keys are `dir.split('/')[-2]` of entries that
are already project directories, so each key names a project's *parent*.
Two projects with the same name under different parents therefore get the
same session name, and opening the second one switches to the first one's
session.

## Left out

- Real filesystem: `os.path.isdir`, `os.path.expanduser` and `pathlib` globbing are the `FileSystem` value; glob result order is whatever that value returns.
- `ProjectScanner.Projects`: the model also accepts a `FileSystem` value with `""` in `isDir`. On such a value it searches from the empty root, where the source's `_remove_path_sep` would raise `IndexError`. A real filesystem never has this, because `os.path.isdir("")` is false; `IsDirSound` states that, and `EmptyRootFindsNothing` uses it.
- `ProjectScanner.GlobSound`: constrains the glob only for roots in `NormalRoot` form and markers in `PlainMarker` form. Other roots are left unconstrained. For `./a`, `a/./b`, `a//b` and a trailing `/` left after the single strip, `pathlib` normalises the root, which the model does not compute. A leading `~` is expanded by `os.path.expanduser` (rplugin/python3/tmuxdir/dirmngr.py:75), which reads the home directory, not by `pathlib`. `NormalRoot` also excludes `//a`, which `pathlib` keeps as written, so it is a strict subset of the roots `pathlib` prints back unchanged. For markers with `/`, `*`, `?` or `[` the pattern is not a literal suffix. `ProjectShape` therefore requires a normal root and plain markers; `.git`, the marker the plugin uses, is plain.
- Only `/` is the path separator; Windows separators are not modelled.
- `ProjectScanner.FindProjects`: requires `depth >= 1`, the depth `add` and `list_dirs` always pass being 3. With `depth < 1` the depth test never holds. A non-eager search that finds something still returns it (dirmngr.py:80-81). An eager search, or a non-eager one that finds nothing, recurses until Python's recursion limit. Neither case is modelled.
- `config_handler.py` (pickle persistence) is not part of this model: the store is the ghost snapshot, and load/save round-trips only the in-memory maps (`DirManager.ReloadRestores`). `test_first_save` is about that file and is not modelled.
- A corrupt or unreadable configuration file (an exception from `load`) is not modelled.
- `DirManager.DirMngr.ListDirs` and `DirManager.ToList`: the order of `list(set)` is not modelled; only membership and no duplicates are stated.
- `DirMngr._session_dirs` is never read or written after construction and is left out.
- `DirMngrScenarios.AddClear`: states that no path is listed (`forall w :: w !in listed`) rather than `listed == []`, which says the same thing for a sequence.
- `test_add_dir_list` and the benchmark tests that need a real `~/b/repos` are not modelled; `DirMngrScenarios.AddDir` covers a path that is not a directory.
- Running processes (`subprocess.Popen`) is the `run` function; stdout is taken as decoded text.
- `TmuxSession.created_time`, computed with `time.localtime`/`strftime`, and `__repr__` are left out; `created_epoch` is kept as the text `tmux` printed. The `ValueError` of `int()` on that text is modelled.
- `TmuxSessionFacade.IntLiteral`: only ASCII digits count as digits. Python's `int()` also accepts other Unicode decimal digits, and on such a word the model raises the `ValueError` where the source does not.
- `TmuxSessionFacade.ParseLine`: a creation time outside the platform's time range, which would make `time.localtime` raise, is not modelled.
- `TmuxSessionFacade.__init__` only runs `_check_tmux_bin`, which is `TmuxSessionFacade.CheckTmuxBin`.
- The `TmuxDirFacade` singleton (`__new__`) and its multiple inheritance are left out; the facade's parts take the manager's listing as a parameter.
- The editor glue is left out, because it only forwards to the core: `__init__.py`, `rplugin.py`, `util.py`, `pythonx/tmuxdir_wrap.py`, the denite sources, the `tmux_session` kind, and `action_delete` and the constructor of the `tmux_dir` kind.
- `OpenProject.ActionOpen`: the target's `word` is taken as the directory path argument, and the editor binary (`vim` or `nvim`) as a parameter.

=== FILE: dir_mngr.dfy ===
/** `DirMngr`: the bookmarked directories (`dirs`) and the ignored ones
    (`ignored_dirs`), two maps from a path to itself that every real change
    writes, both together, to the store; and `list_dirs`, the visible
    projects under the base directories and the bookmarks. */
module DirManager {

  import opened ProjectScanner

  /** The keys the two maps are stored under. */
  const DirsKey: string := "dirs"
  const IgnoredDirsKey: string := "ignored_dirs"

  /** The stored dictionary: one path map per key. */
  type Store = map<string, map<string, string>>

  /** What `_save_dirs` writes: both maps, together. */
  function Snapshot(dirs: map<string, string>, ignoredDirs: map<string, string>): Store
  {
    map[DirsKey := dirs, IgnoredDirsKey := ignoredDirs]
  }

  /** Python's truth value of `m.get(k)`: present with a non-empty value. */
  predicate Truthy(m: map<string, string>, k: string)
  {
    k in m && m[k] != ""
  }

  /** `_get_non_existing_dirs`: the loaded keys that are not directories. */
  function NonExisting(loaded: map<string, string>, isDir: set<string>): (gone: map<string, string>)
    ensures gone.Keys == loaded.Keys - isDir
    ensures forall k :: k in gone ==> gone[k] == k
  {
    map k | k in loaded && k !in isDir :: k
  }

  /** The loaded entries whose key is not among the non-existing ones. */
  function Prune(loaded: map<string, string>, isDir: set<string>): (kept: map<string, string>)
    ensures kept.Keys == loaded.Keys * isDir
    ensures forall k :: k in kept ==> kept[k] == loaded[k]
  {
    var gone := NonExisting(loaded, isDir);
    map k | k in loaded && k !in gone :: loaded[k]
  }

  /** The map `_load_dirs` installs for one key, starting from an empty one:
      the pruned stored map when that is non-empty, otherwise empty. */
  function LoadedMap(loaded: Store, key: string, isDir: set<string>): map<string, string>
  {
    if key in loaded && |loaded[key]| > 0 then Prune(loaded[key], isDir) else map[]
  }

  /** The bookmarks after `_add` of every path of `ps` in turn: each path
      whose entry was not truthy before is mapped to itself. */
  function Inserted(m: map<string, string>, ps: seq<string>): map<string, string>
  {
    m + map p | p in ps && !Truthy(m, p) :: p
  }

  /** How many of those `_add` calls write the store: those that find their
      path not truthy in the map built so far. */
  function SaveCount(m: map<string, string>, ps: seq<string>): nat
    decreases |ps|
  {
    if |ps| == 0 then 0
    else
      var front := ps[..|ps| - 1];
      SaveCount(m, front) + (if Truthy(Inserted(m, front), ps[|ps| - 1]) then 0 else 1)
  }

  lemma InsertedStep(m: map<string, string>, ps: seq<string>, p: string)
    ensures Truthy(Inserted(m, ps), p) ==> Inserted(m, ps + [p]) == Inserted(m, ps)
    ensures !Truthy(Inserted(m, ps), p) ==> Inserted(m, ps + [p]) == Inserted(m, ps)[p := p]
  {
    if Truthy(Inserted(m, ps), p) {
      if !Truthy(m, p) {
        assert p in ps;
      }
    }
  }

  lemma SaveCountStep(m: map<string, string>, ps: seq<string>, p: string)
    ensures SaveCount(m, ps + [p]) == SaveCount(m, ps) + if Truthy(Inserted(m, ps), p) then 0 else 1
  {
    assert (ps + [p])[..|ps|] == ps;
  }

  /** The state after `_add` of every path of `ps` from bookmarks `d0`,
      `s0` writes and last write `st0`. */
  predicate AddedSoFar(d0: map<string, string>, s0: nat, st0: Store, ps: seq<string>,
                       dirs: map<string, string>, ignoredDirs: map<string, string>, saves: nat, stored: Store)
  {
    dirs == Inserted(d0, ps) && saves == s0 + SaveCount(d0, ps)
    && stored == if saves == s0 then st0 else Snapshot(dirs, ignoredDirs)
  }

  /** One more `_add` keeps `AddedSoFar`. */
  lemma AddedStep(d0: map<string, string>, s0: nat, st0: Store, ps: seq<string>, p: string,
                  d1: map<string, string>, s1: nat, st1: Store,
                  dirs: map<string, string>, ignoredDirs: map<string, string>, saves: nat, stored: Store)
    requires AddedSoFar(d0, s0, st0, ps, d1, ignoredDirs, s1, st1)
    requires Truthy(d1, p) ==> dirs == d1 && saves == s1 && stored == st1
    requires !Truthy(d1, p) ==> dirs == d1[p := p] && saves == s1 + 1 && stored == Snapshot(dirs, ignoredDirs)
    ensures AddedSoFar(d0, s0, st0, ps + [p], dirs, ignoredDirs, saves, stored)
  {
    InsertedStep(d0, ps, p);
    SaveCountStep(d0, ps, p);
  }

  /** Adding the same paths again changes no bookmark. */
  lemma AddAgainKeepsDirs(m: map<string, string>, ps: seq<string>)
    ensures Inserted(Inserted(m, ps), ps) == Inserted(m, ps)
  {
    var m1 := Inserted(m, ps);
    forall p | p in ps && !Truthy(m1, p)
      ensures p in m1 && m1[p] == p
    {
      assert !Truthy(m, p);
    }
  }

  lemma InsertedHolds(m: map<string, string>, ps: seq<string>)
    ensures forall p :: p in ps ==> p in Inserted(m, ps)
    ensures Inserted(m, []) == m
  {
  }

  /** Adding paths that are all truthy already changes nothing. */
  lemma InsertedNothingNew(m: map<string, string>, ps: seq<string>)
    requires forall p :: p in ps ==> Truthy(m, p)
    ensures Inserted(m, ps) == m
  {
  }

  /** A sequence of `_add` calls saves nothing exactly when every path is
      already truthy among the bookmarks. */
  lemma {:induction false} SaveCountZero(m: map<string, string>, ps: seq<string>)
    ensures SaveCount(m, ps) == 0 <==> forall p :: p in ps ==> Truthy(m, p)
    decreases |ps|
  {
    if |ps| > 0 {
      var front := ps[..|ps| - 1];
      var last := ps[|ps| - 1];
      SaveCountZero(m, front);
      assert ps == front + [last];
      if SaveCount(m, front) == 0 {
        InsertedNothingNew(m, front);
      }
    }
  }

  /** Once a list of non-empty paths has been added, adding it again saves
      nothing. */
  lemma RepeatAddSavesNothing(m: map<string, string>, ps: seq<string>)
    requires "" !in ps
    ensures SaveCount(Inserted(m, ps), ps) == 0
  {
    var m1 := Inserted(m, ps);
    forall p | p in ps ensures Truthy(m1, p) {
      if Truthy(m, p) {
        assert m1[p] == m[p];
      }
    }
    SaveCountZero(m1, ps);
  }

  /** Saving both maps and loading them back, while every bookmarked and
      ignored path is still a directory, restores both maps. */
  lemma ReloadRestores(dirs: map<string, string>, ignoredDirs: map<string, string>, isDir: set<string>)
    requires dirs.Keys <= isDir && ignoredDirs.Keys <= isDir
    ensures LoadedMap(Snapshot(dirs, ignoredDirs), DirsKey, isDir) == dirs
    ensures LoadedMap(Snapshot(dirs, ignoredDirs), IgnoredDirsKey, isDir) == ignoredDirs
  {
    var s := Snapshot(dirs, ignoredDirs);
    assert s[DirsKey] == dirs;
    assert s[IgnoredDirsKey] == ignoredDirs;
    if |dirs| == 0 {
      assert dirs == map[];
    } else {
      assert Prune(dirs, isDir).Keys == dirs.Keys;
    }
    if |ignoredDirs| == 0 {
      assert ignoredDirs == map[];
    } else {
      assert Prune(ignoredDirs, isDir).Keys == ignoredDirs.Keys;
    }
  }

  predicate NoDuplicates(xs: seq<string>)
  {
    forall i, j :: 0 <= i < j < |xs| ==> xs[i] != xs[j]
  }

  /** `list(s)` for a set of paths: each element once, in some order. */
  method ToList(s: set<string>) returns (xs: seq<string>)
    ensures NoDuplicates(xs)
    ensures forall x :: x in xs <==> x in s
  {
    xs := [];
    var rest := s;
    while rest != {}
      invariant rest <= s
      invariant NoDuplicates(xs)
      invariant forall x :: x in xs <==> x in s - rest
      decreases |rest|
    {
      var x :| x in rest;
      assert x !in xs;
      xs := xs + [x];
      rest := rest - {x};
    }
  }

  /** The inner loop of `list_dirs`: add each walked path whose ignored
      entry is not truthy. */
  method KeepVisible(walked: seq<string>, ignoredDirs: map<string, string>, seen: set<string>)
    returns (kept: set<string>)
    ensures forall w :: w in kept <==> w in seen || (w in walked && !Truthy(ignoredDirs, w))
  {
    kept := seen;
    var j := 0;
    while j < |walked|
      invariant 0 <= j <= |walked|
      invariant forall w :: w in kept <==> w in seen || (w in walked[..j] && !Truthy(ignoredDirs, w))
    {
      if !(walked[j] in ignoredDirs && ignoredDirs[walked[j]] != "") {
        kept := kept + {walked[j]};
      }
      assert walked[..j + 1] == walked[..j] + [walked[j]];
      j := j + 1;
    }
    assert walked[..j] == walked;
  }

  /** `w` is found under one of the first `n` roots. */
  ghost predicate FoundIn(fs: FileSystem, roots: seq<string>, markers: seq<string>, n: nat, w: string)
    requires n <= |roots|
  {
    exists k :: 0 <= k < n && w in Projects(fs, roots[k], markers, DefaultDepth, DefaultEager)
  }

  lemma FoundInStep(fs: FileSystem, roots: seq<string>, markers: seq<string>, n: nat)
    requires n < |roots|
    ensures forall w :: FoundIn(fs, roots, markers, n + 1, w) <==>
              FoundIn(fs, roots, markers, n, w) || w in Projects(fs, roots[n], markers, DefaultDepth, DefaultEager)
  {
  }

  lemma FoundInRoots(fs: FileSystem, base: seq<string>, keys: seq<string>, keySet: set<string>, markers: seq<string>)
    requires forall x :: x in keys <==> x in keySet
    ensures forall w :: FoundIn(fs, base + keys, markers, |base + keys|, w) <==>
              exists r :: (r in base || r in keySet) && w in Projects(fs, r, markers, DefaultDepth, DefaultEager)
  {
    var roots := base + keys;
    forall w | exists r :: (r in base || r in keySet) && w in Projects(fs, r, markers, DefaultDepth, DefaultEager)
      ensures FoundIn(fs, roots, markers, |roots|, w)
    {
      var r :| (r in base || r in keySet) && w in Projects(fs, r, markers, DefaultDepth, DefaultEager);
      assert r in roots;
      var k :| 0 <= k < |roots| && roots[k] == r;
    }
    forall w | FoundIn(fs, roots, markers, |roots|, w)
      ensures exists r :: (r in base || r in keySet) && w in Projects(fs, r, markers, DefaultDepth, DefaultEager)
    {
      var k :| 0 <= k < |roots| && w in Projects(fs, roots[k], markers, DefaultDepth, DefaultEager);
      assert roots[k] in base || roots[k] in keys;
    }
  }

  class DirMngr {
    const baseDirs: seq<string>
    const rootMarkers: seq<string>
    var dirs: map<string, string>
    var ignoredDirs: map<string, string>
    /** The last dictionary written to the store, and how many writes there
        have been. */
    ghost var stored: Store
    ghost var saves: nat

    /** `__init__`: no bookmarks yet, the store holding `loaded`, then
        `_load_dirs`. */
    constructor (baseDirs: seq<string>, rootMarkers: seq<string>, fs: FileSystem, loaded: Store)
      ensures this.baseDirs == baseDirs && this.rootMarkers == rootMarkers
      ensures dirs == LoadedMap(loaded, DirsKey, fs.isDir)
      ensures ignoredDirs == LoadedMap(loaded, IgnoredDirsKey, fs.isDir)
      ensures dirs.Keys <= fs.isDir && ignoredDirs.Keys <= fs.isDir
      ensures |loaded| > 0 ==> saves == 1 && stored == Snapshot(dirs, ignoredDirs)
      ensures |loaded| == 0 ==> saves == 0 && stored == loaded
    {
      this.baseDirs := baseDirs;
      this.rootMarkers := rootMarkers;
      dirs := map[];
      ignoredDirs := map[];
      stored := loaded;
      saves := 0;
      new;
      LoadDirs(fs, loaded);
    }

    /** `_load_dirs`: for each key whose stored map is non-empty, install it
        without the paths that are no longer directories; save both maps back
        whenever the store held anything. */
    method LoadDirs(fs: FileSystem, loaded: Store)
      modifies this
      ensures dirs == if DirsKey in loaded && |loaded[DirsKey]| > 0 then Prune(loaded[DirsKey], fs.isDir) else old(dirs)
      ensures ignoredDirs == if IgnoredDirsKey in loaded && |loaded[IgnoredDirsKey]| > 0
                             then Prune(loaded[IgnoredDirsKey], fs.isDir) else old(ignoredDirs)
      ensures |loaded| > 0 ==> saves == old(saves) + 1 && stored == Snapshot(dirs, ignoredDirs)
      ensures |loaded| == 0 ==> saves == old(saves) && stored == old(stored)
    {
      if |loaded| > 0 {
        if DirsKey in loaded && |loaded[DirsKey]| > 0 {
          dirs := Prune(loaded[DirsKey], fs.isDir);
        }
        if IgnoredDirsKey in loaded && |loaded[IgnoredDirsKey]| > 0 {
          ignoredDirs := Prune(loaded[IgnoredDirsKey], fs.isDir);
        }
        SaveDirs();
      }
    }

    /** `_save_dirs`: write both maps to the store in one dictionary. */
    method SaveDirs()
      modifies this
      ensures dirs == old(dirs) && ignoredDirs == old(ignoredDirs)
      ensures stored == Snapshot(dirs, ignoredDirs) && saves == old(saves) + 1
    {
      stored := Snapshot(dirs, ignoredDirs);
      saves := saves + 1;
    }

    /** `_add`: bookmark one path unless its entry is already truthy; save
        only when it was not. */
    method AddOne(inputDir: string) returns (r: string)
      modifies this
      ensures r == inputDir && inputDir in dirs && ignoredDirs == old(ignoredDirs)
      ensures Truthy(old(dirs), inputDir) ==> dirs == old(dirs) && saves == old(saves) && stored == old(stored)
      ensures !Truthy(old(dirs), inputDir) ==>
                dirs == old(dirs)[inputDir := inputDir] && saves == old(saves) + 1
                && stored == Snapshot(dirs, ignoredDirs)
    {
      if inputDir in dirs && dirs[inputDir] != "" {
        return inputDir;
      }
      dirs := dirs[inputDir := inputDir];
      SaveDirs();
      return inputDir;
    }

    /** `add`: nothing for an ignored path; otherwise every project found
        under it (depth 3, eager), in order, each bookmarked with `_add`. */
    method Add(fs: FileSystem, inputDir: string) returns (added: seq<string>)
      modifies this
      ensures ignoredDirs == old(ignoredDirs)
      ensures inputDir in old(ignoredDirs) ==>
                added == [] && dirs == old(dirs) && saves == old(saves) && stored == old(stored)
      ensures inputDir !in old(ignoredDirs) ==>
                added == Projects(fs, inputDir, rootMarkers, DefaultDepth, DefaultEager)
      ensures dirs == Inserted(old(dirs), added)
      ensures forall p :: p in added ==> p in dirs
      ensures saves == old(saves) + SaveCount(old(dirs), added)
      ensures saves == old(saves) ==> stored == old(stored)
      ensures saves != old(saves) ==> stored == Snapshot(dirs, ignoredDirs)
    {
      if inputDir in ignoredDirs {
        InsertedHolds(dirs, []);
        return [];
      }
      var found := FindProjects(fs, inputDir, rootMarkers, DefaultDepth, DefaultEager);
      added := AddEach(found);
    }

    /** The list comprehension of `add`: `_add` on every path in order,
        collecting what each returns. */
    method AddEach(found: seq<string>) returns (added: seq<string>)
      modifies this
      ensures added == found && ignoredDirs == old(ignoredDirs)
      ensures dirs == Inserted(old(dirs), found)
      ensures forall p :: p in found ==> p in dirs
      ensures saves == old(saves) + SaveCount(old(dirs), found)
      ensures saves == old(saves) ==> stored == old(stored)
      ensures saves != old(saves) ==> stored == Snapshot(dirs, ignoredDirs)
    {
      ghost var d0, s0, st0 := dirs, saves, stored;
      InsertedHolds(d0, []);
      added := [];
      var i := 0;
      while i < |found|
        invariant 0 <= i <= |found| && added == found[..i] && ignoredDirs == old(ignoredDirs)
        invariant AddedSoFar(d0, s0, st0, added, dirs, ignoredDirs, saves, stored)
      {
        ghost var d1, s1, st1 := dirs, saves, stored;
        var p := AddOne(found[i]);
        AddedStep(d0, s0, st0, added, p, d1, s1, st1, dirs, ignoredDirs, saves, stored);
        added := added + [p];
        i := i + 1;
        assert found[..i] == found[..i - 1] + [p];
      }
      assert found[..i] == found;
      InsertedHolds(d0, found);
    }

    /** `clear_added_dir`: remove the key; succeed, and save, when its entry
        was truthy. */
    method ClearAddedDir(inputDir: string) returns (ok: bool)
      modifies this
      ensures ok == Truthy(old(dirs), inputDir)
      ensures dirs == old(dirs) - {inputDir} && ignoredDirs == old(ignoredDirs)
      ensures ok ==> saves == old(saves) + 1 && stored == Snapshot(dirs, ignoredDirs)
      ensures !ok ==> saves == old(saves) && stored == old(stored)
    {
      ok := inputDir in dirs && dirs[inputDir] != "";
      dirs := dirs - {inputDir};
      if ok {
        SaveDirs();
      }
    }

    /** `clear_added_dirs`: drop every bookmark and save. */
    method ClearAddedDirs() returns (ok: bool)
      modifies this
      ensures ok && dirs == map[] && ignoredDirs == old(ignoredDirs)
      ensures saves == old(saves) + 1 && stored == Snapshot(dirs, ignoredDirs)
    {
      dirs := map[];
      SaveDirs();
      return true;
    }

    /** `ignore`: always succeeds; map the path to itself among the ignored
        ones and save, unless its entry there is already truthy. */
    method Ignore(inputDir: string) returns (ok: bool)
      modifies this
      ensures ok && inputDir in ignoredDirs && dirs == old(dirs)
      ensures Truthy(old(ignoredDirs), inputDir) ==>
                ignoredDirs == old(ignoredDirs) && saves == old(saves) && stored == old(stored)
      ensures !Truthy(old(ignoredDirs), inputDir) ==>
                ignoredDirs == old(ignoredDirs)[inputDir := inputDir] && saves == old(saves) + 1
                && stored == Snapshot(dirs, ignoredDirs)
    {
      if inputDir in ignoredDirs && ignoredDirs[inputDir] != "" {
        return true;
      }
      ignoredDirs := ignoredDirs[inputDir := inputDir];
      SaveDirs();
      return true;
    }

    /** `clear_ignored_dir`: remove the key; succeed, and save, when its
        entry was truthy. */
    method ClearIgnoredDir(inputDir: string) returns (ok: bool)
      modifies this
      ensures ok == Truthy(old(ignoredDirs), inputDir)
      ensures ignoredDirs == old(ignoredDirs) - {inputDir} && dirs == old(dirs)
      ensures ok ==> saves == old(saves) + 1 && stored == Snapshot(dirs, ignoredDirs)
      ensures !ok ==> saves == old(saves) && stored == old(stored)
    {
      ok := inputDir in ignoredDirs && ignoredDirs[inputDir] != "";
      ignoredDirs := ignoredDirs - {inputDir};
      if ok {
        SaveDirs();
      }
    }

    /** `clear_ignored_dirs`: drop every ignored path and save. */
    method ClearIgnoredDirs() returns (ok: bool)
      modifies this
      ensures ok && ignoredDirs == map[] && dirs == old(dirs)
      ensures saves == old(saves) + 1 && stored == Snapshot(dirs, ignoredDirs)
    {
      ignoredDirs := map[];
      SaveDirs();
      return true;
    }

    /** `list_dirs`: scan every base directory and every bookmark (depth 3,
        eager), keep the results whose ignored entry is not truthy, each
        once. */
    method ListDirs(fs: FileSystem) returns (listed: seq<string>)
      ensures NoDuplicates(listed)
      ensures forall w :: w in listed <==>
                !Truthy(ignoredDirs, w)
                && exists r :: (r in baseDirs || r in dirs) && w in Projects(fs, r, rootMarkers, DefaultDepth, DefaultEager)
    {
      var keys := ToList(dirs.Keys);
      var roots := baseDirs + keys;
      var seen: set<string> := {};
      var i := 0;
      while i < |roots|
        invariant 0 <= i <= |roots|
        invariant forall w :: w in seen <==> !Truthy(ignoredDirs, w) && FoundIn(fs, roots, rootMarkers, i, w)
      {
        var walked := FindProjects(fs, roots[i], rootMarkers, DefaultDepth, DefaultEager);
        seen := KeepVisible(walked, ignoredDirs, seen);
        FoundInStep(fs, roots, rootMarkers, i);
        i := i + 1;
      }
      listed := ToList(seen);
      FoundInRoots(fs, baseDirs, keys, dirs.Keys, rootMarkers);
    }
  }
}

=== FILE: dir_mngr_scenarios.dfy ===
/** The directory manager's unit tests as clients of the model: each runs
    the same calls, on a filesystem where the test's repository is the only
    project under itself, and promises what the test asserts. */
module DirMngrScenarios {

  import opened ProjectScanner
  import opened DirManager

  /** Adding one path to no bookmarks bookmarks just that path. */
  lemma InsertedIntoEmpty(p: string)
    ensures Inserted(map[], [p]) == map[p := p]
  {
  }

  /** `test_add_dir`: adding the repository returns it first and bookmarks
      it; adding a path that is not a directory returns nothing. */
  method AddDir(m: DirMngr, fs: FileSystem, repo: string, missing: string)
    returns (first: seq<string>, second: seq<string>)
    requires repo !in m.ignoredDirs && missing !in fs.isDir
    requires Projects(fs, repo, m.rootMarkers, DefaultDepth, DefaultEager) == [repo]
    modifies m
    ensures |first| >= 1 && first[0] == repo && second == [] && repo in m.dirs
  {
    first := m.Add(fs, repo);
    second := m.Add(fs, missing);
  }

  /** `test_add_clear`: with no base directories and no bookmarks, add the
      repository, clear it, and nothing is listed any more (the listing has
      no element); clearing a path
      that was never added fails. */
  method AddClear(m: DirMngr, fs: FileSystem, repo: string, other: string)
    returns (added: seq<string>, cleared: bool, listed: seq<string>, clearedOther: bool)
    requires m.baseDirs == [] && m.dirs == map[] && repo !in m.ignoredDirs && repo != ""
    requires Projects(fs, repo, m.rootMarkers, DefaultDepth, DefaultEager) == [repo]
    modifies m
    ensures added == [repo] && cleared && !clearedOther && repo !in m.dirs
    ensures forall w :: w !in listed
  {
    added := m.Add(fs, repo);
    InsertedIntoEmpty(repo);
    cleared := m.ClearAddedDir(repo);
    assert m.dirs == map[];
    listed := m.ListDirs(fs);
    clearedOther := m.ClearAddedDir(other);
  }

  /** `test_clear_added_dirs`: after adding the repository and clearing it,
      no bookmark is left, in memory or in the store. */
  method ClearAdded(m: DirMngr, fs: FileSystem, repo: string)
    returns (first: seq<string>, cleared: bool)
    requires m.dirs == map[] && repo !in m.ignoredDirs && repo != ""
    requires Projects(fs, repo, m.rootMarkers, DefaultDepth, DefaultEager) == [repo]
    modifies m
    ensures |first| >= 1 && first[0] == repo && cleared
    ensures m.dirs == map[] && DirsKey in m.stored && m.stored[DirsKey] == map[]
  {
    first := m.Add(fs, repo);
    InsertedIntoEmpty(repo);
    cleared := m.ClearAddedDir(repo);
    assert m.dirs == map[];
  }

  /** `test_add_ignore`: once the repository is ignored, adding it again
      returns nothing and it is not listed. */
  method AddIgnore(m: DirMngr, fs: FileSystem, repo: string)
    returns (first: seq<string>, ignored: bool, second: seq<string>, listed: seq<string>)
    requires repo !in m.ignoredDirs && repo != ""
    requires Projects(fs, repo, m.rootMarkers, DefaultDepth, DefaultEager) == [repo]
    modifies m
    ensures first == [repo] && ignored && second == [] && repo !in listed
  {
    first := m.Add(fs, repo);
    ignored := m.Ignore(repo);
    assert Truthy(m.ignoredDirs, repo);
    second := m.Add(fs, repo);
    listed := m.ListDirs(fs);
  }

  /** `test_clear_ignored_dirs`: after ignoring the repository and clearing
      every ignored path, none is left, in memory or in the store. */
  method ClearIgnored(m: DirMngr, fs: FileSystem, repo: string)
    returns (first: seq<string>, ignored: bool, cleared: bool)
    requires repo !in m.ignoredDirs
    requires Projects(fs, repo, m.rootMarkers, DefaultDepth, DefaultEager) == [repo]
    modifies m
    ensures |first| >= 1 && first[0] == repo && ignored && cleared
    ensures m.ignoredDirs == map[] && IgnoredDirsKey in m.stored && m.stored[IgnoredDirsKey] == map[]
  {
    first := m.Add(fs, repo);
    ignored := m.Ignore(repo);
    cleared := m.ClearIgnoredDirs();
  }
}

=== FILE: open_project.dfy ===
/** The "open" action on a project directory: name its session, create the
    session unless one of that name is listed, then switch to it, with an
    `except` clause around the switch that is meant to show its error to the
    user instead of raising it. */
module OpenProject {

  import opened Wrappers
  import opened TmuxSessionFacade
  import SessionName

  /** How the action ends: the session name could not be derived (an
      `IndexError`), an exception escaped, or it finished, possibly showing
      the switch's error. */
  datatype Ending = NameFailed | Raised(error: Error) | Done(shown: Option<Error>)

  /** The facades' exception classes, `TmuxFacadeException` and its two
      subclasses `TmuxFacadeBinException` and `TmuxDirFacadeException`, and
      `ValueError`, which is none of them. */
  datatype ErrorClass = FacadeClass | BinClass | DirFacadeClass | ValueErrorClass

  /** The class of the exception that carries an error. No operation of the
      facades raises a `TmuxDirFacadeException`. */
  function ClassOf(e: Error): (c: ErrorClass)
    ensures c != DirFacadeClass
    ensures c == BinClass <==> e.BinError?
    ensures c == ValueErrorClass <==> e.IntValueError?
  {
    match e
    case FacadeError(_) => FacadeClass
    case BinError(_) => BinClass
    case IntValueError(_) => ValueErrorClass
  }

  /** Whether `except handled` catches an exception of class `c`: its own
      class, or any facade class when it names their base class. */
  predicate Catches(handled: ErrorClass, c: ErrorClass)
  {
    handled == c || (handled == FacadeClass && c != ValueErrorClass)
  }

  /** The class `action_open` names around the switch. */
  const WrittenHandler: ErrorClass := DirFacadeClass

  /** The class that shows every error of the switch. */
  const IntendedHandler: ErrorClass := FacadeClass

  /** The command that creates the session for `dirPath` named `name` with
      the default editor arguments. */
  function CreateArgv(name: string, vimBinPath: string, dirPath: string): Argv
  {
    ["tmux", "new-session", "-d", "-c", dirPath, "-s", name, vimBinPath, "-c", DefaultVimArgs]
  }

  /** How the action ends after the switch: an error of the switch is shown
      when `handled` catches it and raised otherwise. */
  function SwitchEnding(handled: ErrorClass, switched: Result<(), Error>): Ending
  {
    match switched
    case Ok(_) => Done(None)
    case Err(e) => if Catches(handled, ClassOf(e)) then Done(Some(e)) else Raised(e)
  }

  /** The commands `action_open` issues after `prefix` when it switches,
      and how it ends. */
  function SwitchAfter(handled: ErrorClass, prefix: seq<Argv>, run: Argv -> Process,
                       env: map<string, string>, name: string): (seq<Argv>, Ending)
  {
    var switched := Switch(run, env, name);
    (prefix + switched.issued, SwitchEnding(handled, switched.result))
  }

  /** What `action_open` issues and how it ends, given the class its
      `except` clause names, the listed project directories and the
      environment. */
  function Opened(handled: ErrorClass, run: Argv -> Process, env: map<string, string>, vimBinPath: string,
                  dirPath: string, listed: seq<string>): (seq<Argv>, Ending)
  {
    match SessionName.DirToSessionName(dirPath, listed)
    case None => ([], NameFailed)
    case Some(name) =>
      match SessionsOf(run)
      case Err(e) => ([ListSessionsArgv], Raised(e))
      case Ok(sessions) =>
        if name in sessions then SwitchAfter(handled, [ListSessionsArgv], run, env, name)
        else
          var create := CreateArgv(name, vimBinPath, dirPath);
          match RunCmd(run, create).result
          case Err(e) => ([ListSessionsArgv, create], Raised(e))
          case Ok(_) => SwitchAfter(handled, [ListSessionsArgv, create], run, env, name)
  }

  /** `action_open`: derive the session name, list the sessions, create the
      session if it is not listed, then switch to it, catching `handled`. */
  method ActionOpen(handled: ErrorClass, run: Argv -> Process, env: map<string, string>, vimBinPath: string,
                    dirPath: string, listed: seq<string>)
    returns (issued: seq<Argv>, ending: Ending)
    ensures (issued, ending) == Opened(handled, run, env, vimBinPath, dirPath, listed)
  {
    var named := SessionName.DirToSessionName(dirPath, listed);
    if named.None? {
      return [], NameFailed;
    }
    var name := named.value;
    var listing := Sessions(run);
    issued := listing.issued;
    if listing.result.Err? {
      return issued, Raised(listing.result.error);
    }
    if name !in listing.result.value {
      var create := CreateArgv(name, vimBinPath, dirPath);
      var created := Create(run, name, vimBinPath, dirPath, DefaultVimArgs);
      var argv := created.issued[0];
      assert DefaultVimArgs != "";
      assert argv == argv[..8] + argv[8..];
      assert argv == create;
      assert created.issued == [create];
      issued := issued + created.issued;
      assert issued == [ListSessionsArgv, create];
      if created.result.Err? {
        assert created.result.error == RunCmd(run, create).result.error;
        return issued, Raised(created.result.error);
      }
      assert Opened(handled, run, env, vimBinPath, dirPath, listed) == SwitchAfter(handled, [ListSessionsArgv, create], run, env, name);
    } else {
      assert Opened(handled, run, env, vimBinPath, dirPath, listed) == SwitchAfter(handled, [ListSessionsArgv], run, env, name);
    }
    var switched := Switch(run, env, name);
    issued := issued + switched.issued;
    ending := SwitchEnding(handled, switched.result);
  }

  /** Every command of the action is a `tmux` command. */
  lemma OpenIssuesTmuxOnly(handled: ErrorClass, run: Argv -> Process, env: map<string, string>, vimBinPath: string,
                           dirPath: string, listed: seq<string>)
    ensures forall c :: c in Opened(handled, run, env, vimBinPath, dirPath, listed).0 ==> |c| >= 2 && c[0] == "tmux"
  {
  }

  /** Once the sessions are listed, a `new-session` is issued exactly when
      the derived name is not among them, right after the listing. */
  lemma OpenCreatesOnlyUnlisted(handled: ErrorClass, run: Argv -> Process, env: map<string, string>, vimBinPath: string,
                                dirPath: string, listed: seq<string>, name: string)
    requires SessionName.DirToSessionName(dirPath, listed) == Some(name) && SessionsOf(run).Ok?
    ensures var issued := Opened(handled, run, env, vimBinPath, dirPath, listed).0;
            name !in SessionsOf(run).value <==> exists c :: c in issued && c[1] == "new-session"
    ensures var issued := Opened(handled, run, env, vimBinPath, dirPath, listed).0;
            name !in SessionsOf(run).value ==>
              |issued| >= 2 && issued[..2] == [ListSessionsArgv, CreateArgv(name, vimBinPath, dirPath)]
  {
    var issued := Opened(handled, run, env, vimBinPath, dirPath, listed).0;
    var switched := Switch(run, env, name).issued;
    if name in SessionsOf(run).value {
      assert issued == [ListSessionsArgv] + switched;
      forall c | c in issued ensures c[1] != "new-session" {
        if c in switched {
          assert c == ["tmux", "switch-client", "-t", name];
        }
      }
    } else {
      var create := CreateArgv(name, vimBinPath, dirPath);
      assert issued[1] == create;
      assert issued[1] in issued;
    }
  }

  /** As written, the `except` clause names a class that no error of the
      switch has: opening a project whose session is listed, from an editor
      outside tmux, raises the switch's error instead of showing it. */
  lemma UnattachedSwitchEscapes(run: Argv -> Process, env: map<string, string>, vimBinPath: string,
                                dirPath: string, listed: seq<string>, name: string)
    requires SessionName.DirToSessionName(dirPath, listed) == Some(name)
    requires SessionsOf(run).Ok? && name in SessionsOf(run).value && !IsAttached(env)
    ensures Opened(WrittenHandler, run, env, vimBinPath, dirPath, listed)
            == ([ListSessionsArgv], Raised(FacadeError(NotAttachedMessage)))
  {
    assert Switch(run, env, name) == Outcome([], Err(FacadeError(NotAttachedMessage)));
    assert [ListSessionsArgv] + [] == [ListSessionsArgv];
    assert !Catches(WrittenHandler, ClassOf(FacadeError(NotAttachedMessage)));
  }

  /** With the base class named, the action ends normally exactly when the
      sessions are listed and, for an unlisted name, the session is created:
      an error of the switch is always shown, never raised. */
  lemma SwitchErrorShown(run: Argv -> Process, env: map<string, string>, vimBinPath: string,
                         dirPath: string, listed: seq<string>, name: string)
    requires SessionName.DirToSessionName(dirPath, listed) == Some(name)
    ensures var ending := Opened(IntendedHandler, run, env, vimBinPath, dirPath, listed).1;
            ending.Done? <==>
              SessionsOf(run).Ok? &&
              (name in SessionsOf(run).value || RunCmd(run, CreateArgv(name, vimBinPath, dirPath)).result.Ok?)
    ensures var ending := Opened(IntendedHandler, run, env, vimBinPath, dirPath, listed).1;
            ending.Done? ==>
              (ending.shown.Some? <==> Switch(run, env, name).result.Err?) &&
              (ending.shown.Some? ==> Switch(run, env, name).result == Err(ending.shown.value))
  {
  }
}

=== FILE: paths.dfy ===
/** Path strings as the source handles them: Python's `str.split(sep)` and
    `sep.join(parts)` with the POSIX separator `/`, and the two small path
    edits built from them (dropping the last segment, stripping one trailing
    separator). */
module Paths {

  /** `os.path.sep` on POSIX. */
  const Sep: char := '/'

  /** Python's `s.split(c)`: the pieces between occurrences of `c`, always at
      least one (`"".split("/") == [""]`). */
  function Split(s: string, c: char): (parts: seq<string>)
    ensures |parts| >= 1
    decreases |s|
  {
    if |s| == 0 then [""]
    else if s[0] == c then [""] + Split(s[1..], c)
    else
      var rest := Split(s[1..], c);
      [[s[0]] + rest[0]] + rest[1..]
  }

  /** Python's `c.join(parts)`. */
  function Join(parts: seq<string>, c: char): string
    decreases |parts|
  {
    if |parts| == 0 then ""
    else if |parts| == 1 then parts[0]
    else parts[0] + [c] + Join(parts[1..], c)
  }

  /** No piece contains the separator. */
  predicate SepFree(parts: seq<string>, c: char)
  {
    forall i :: 0 <= i < |parts| ==> c !in parts[i]
  }

  /** The pieces of a split never contain the separator. */
  lemma {:induction false} SplitSepFree(s: string, c: char)
    ensures SepFree(Split(s, c), c)
    decreases |s|
  {
    if |s| > 0 {
      SplitSepFree(s[1..], c);
      var rest := Split(s[1..], c);
      if s[0] != c {
        forall i | 0 <= i < |Split(s, c)| ensures c !in Split(s, c)[i] {
          if i == 0 {
            assert Split(s, c)[0] == [s[0]] + rest[0];
          } else {
            assert Split(s, c)[i] == rest[i];
          }
        }
      }
    }
  }

  /** Joining the pieces of a split gives back the string. */
  lemma {:induction false} JoinSplit(s: string, c: char)
    ensures Join(Split(s, c), c) == s
    decreases |s|
  {
    if |s| > 0 {
      JoinSplit(s[1..], c);
      var rest := Split(s[1..], c);
      if s[0] == c {
        assert Split(s, c)[1..] == rest;
      } else {
        var parts := Split(s, c);
        assert parts[1..] == rest[1..];
        if |rest| == 1 {
          assert Join(parts, c) == [s[0]] + rest[0];
        } else {
          assert Join(rest, c) == rest[0] + [c] + Join(rest[1..], c);
          assert Join(parts, c) == [s[0]] + rest[0] + [c] + Join(rest[1..], c);
        }
        assert s == [s[0]] + s[1..];
      }
    }
  }

  /** A string without the separator splits into itself. */
  lemma {:induction false} SplitSepFreeString(x: string, c: char)
    requires c !in x
    ensures Split(x, c) == [x]
    decreases |x|
  {
    if |x| > 0 {
      SplitSepFreeString(x[1..], c);
      assert x == [x[0]] + x[1..];
    }
  }

  /** Splitting `x + c + y`, with `x` free of the separator, yields `x` and
      then the pieces of `y`. */
  lemma {:induction false} SplitAfterPiece(x: string, c: char, y: string)
    requires c !in x
    ensures Split(x + [c] + y, c) == [x] + Split(y, c)
    decreases |x|
  {
    if |x| == 0 {
      assert x + [c] + y == [c] + y;
      assert ([c] + y)[1..] == y;
    } else {
      var s := x + [c] + y;
      assert s[1..] == x[1..] + [c] + y;
      SplitAfterPiece(x[1..], c, y);
      assert [x[0]] + x[1..] == x;
    }
  }

  /** Splitting a join of separator-free pieces gives the pieces back. */
  lemma {:induction false} SplitJoin(parts: seq<string>, c: char)
    requires |parts| >= 1 && SepFree(parts, c)
    ensures Split(Join(parts, c), c) == parts
    decreases |parts|
  {
    if |parts| == 1 {
      SplitSepFreeString(parts[0], c);
    } else {
      SplitJoin(parts[1..], c);
      SplitAfterPiece(parts[0], c, Join(parts[1..], c));
      assert parts == [parts[0]] + parts[1..];
    }
  }

  /** Joining two non-empty runs of pieces puts one separator between them. */
  lemma {:induction false} JoinConcat(front: seq<string>, back: seq<string>, c: char)
    requires |front| >= 1 && |back| >= 1
    ensures Join(front + back, c) == Join(front, c) + [c] + Join(back, c)
    decreases |front|
  {
    if |front| == 1 {
      assert (front + back)[1..] == back;
    } else {
      assert (front + back)[1..] == front[1..] + back;
      JoinConcat(front[1..], back, c);
    }
  }

  /** A path splits into more than one segment exactly when it holds the
      separator. */
  lemma {:induction false} SplitCount(s: string)
    ensures |Split(s, Sep)| >= 2 <==> Sep in s
    decreases |s|
  {
    if |s| > 0 {
      SplitCount(s[1..]);
      assert s == [s[0]] + s[1..];
    }
  }

  /** `sep.join(path.split(sep)[:-1])`: the path with its last segment
      removed (the empty string for a path without a separator). */
  function DropLast(path: string): string
  {
    var parts := Split(path, Sep);
    Join(parts[..|parts| - 1], Sep)
  }

  /** The last `/`-segment of a path. */
  function LastSegment(path: string): string
  {
    var parts := Split(path, Sep);
    parts[|parts| - 1]
  }

  /** Dropping the last segment of a path with at least one separator leaves
      a parent whose segments are all but the last of the path's, and the
      parent, a separator and the last segment rebuild the path. */
  lemma DropLastParent(path: string)
    requires |Split(path, Sep)| >= 2
    ensures DropLast(path) + [Sep] + LastSegment(path) == path
    ensures Split(DropLast(path), Sep) == Split(path, Sep)[..|Split(path, Sep)| - 1]
  {
    var parts := Split(path, Sep);
    var n := |parts|;
    SplitSepFree(path, Sep);
    JoinSplit(path, Sep);
    assert parts == parts[..n - 1] + [parts[n - 1]];
    JoinConcat(parts[..n - 1], [parts[n - 1]], Sep);
    SplitJoin(parts[..n - 1], Sep);
  }

  /** `_remove_path_sep`: strip one trailing separator, if present. */
  function StripSep(dir: string): (r: string)
    ensures |dir| > 0 && dir[|dir| - 1] == Sep ==> r + [Sep] == dir
    ensures (|dir| == 0 || dir[|dir| - 1] != Sep) ==> r == dir
  {
    if |dir| > 0 && dir[|dir| - 1] == Sep then dir[..|dir| - 1] else dir
  }
}

=== FILE: project_scanner.dfy ===
/** The bounded-depth project search of `DirMngr.find_projects`: at depth d
    it globs, under the root and for each marker, d - 1 wildcard directories
    followed by a name ending in the marker, keeps the parent of every hit,
    and either goes on to the next depth (eager) or stops after the first
    depth that produced anything. */
module ProjectScanner {

  import opened Paths

  /** The part of the filesystem the search sees: the set of paths that are
      existing directories (`os.path.isdir`) and `pathlib.Path(root).glob`,
      whose result order the filesystem decides. */
  datatype FileSystem = FileSystem(isDir: set<string>, glob: (string, string) -> seq<string>)

  /** The default depth and eagerness `add` and `list_dirs` search with. */
  const DefaultDepth: nat := 3
  const DefaultEager: bool := true

  function Repeat(s: string, n: nat): string
  {
    if n == 0 then "" else s + Repeat(s, n - 1)
  }

  /** The glob expression for depth `d`: `d - 1` wildcard directories, then a
      name ending in the marker. */
  function Pattern(d: nat, marker: string): string
    requires d >= 1
  {
    Repeat("*/", d - 1) + "*" + marker
  }

  predicate EndsWith(s: string, suffix: string)
  {
    |suffix| <= |s| && s[|s| - |suffix|..] == suffix
  }

  /** The segments of the root that glob results start with; `Path("")` is
      the current directory, whose results are relative. */
  function RootParts(root: string): seq<string>
  {
    if root == "" then [] else Split(root, Sep)
  }

  /** `h` is a path exactly `d` non-empty segments below `root` whose last
      segment ends with `marker`: what globbing `Pattern(d, marker)` under
      `root` can return. */
  ghost predicate IsHit(root: string, d: nat, marker: string, h: string)
  {
    var parts := Split(h, Sep);
    var base := RootParts(root);
    && |parts| == |base| + d
    && parts[..|base|] == base
    && (forall k :: |base| <= k < |parts| ==> parts[k] != "")
    && EndsWith(parts[|parts| - 1], marker)
  }

  /** A marker the glob matches literally: no separator and none of the
      wildcard characters `*`, `?` and `[`. `.git` is one. */
  predicate PlainMarker(m: string)
  {
    forall c | c in m :: c != Sep && c != '*' && c != '?' && c != '['
  }

  /** A root that `pathlib.Path` prints back unchanged, so that what it globs
      starts with the root's own segments: the empty root (the current
      directory, whose results are relative), or a root without a leading
      `~`, without a `.` segment and without an empty segment other than the
      leading one of an absolute path (so no `//` and no trailing `/`). */
  predicate NormalRoot(root: string)
  {
    || root == ""
    || (&& root[0] != '~'
        && var parts := Split(root, Sep);
           forall k | 0 <= k < |parts| :: parts[k] != "." && (parts[k] == "" ==> k == 0 && |parts| > 1))
  }

  /** The glob oracle returns nothing but hits of the pattern it is given,
      for roots in normal form and literal markers; for those `Pattern` is
      one-to-one (`PatternInjective`), so each pattern asks for one depth
      and one marker. */
  ghost predicate GlobSound(fs: FileSystem)
  {
    forall root, d, marker, h | 1 <= d && NormalRoot(root) && PlainMarker(marker) && h in fs.glob(root, Pattern(d, marker)) ::
      IsHit(root, d, marker, h)
  }

  /** One more level of depth puts one more wildcard directory in front of
      the pattern. */
  lemma PatternStep(d: nat, m: string)
    requires d >= 2
    ensures Pattern(d, m) == "*/" + Pattern(d - 1, m)
  {
    assert Repeat("*/", d - 1) == "*/" + Repeat("*/", d - 2);
  }

  /** With a separator-free marker, the pattern holds a separator exactly
      when it looks below the first level. */
  lemma PatternSeps(d: nat, m: string)
    requires d >= 1 && Sep !in m
    ensures Sep in Pattern(d, m) <==> d >= 2
  {
    if d == 1 {
      assert Pattern(1, m) == "*" + m;
    } else {
      PatternStep(d, m);
      assert Pattern(d, m)[1] == Sep;
    }
  }

  /** Different depths or different separator-free markers give different
      patterns. */
  lemma {:induction false} PatternInjective(d: nat, m: string, d2: nat, m2: string)
    requires 1 <= d && 1 <= d2 && Sep !in m && Sep !in m2
    requires Pattern(d, m) == Pattern(d2, m2)
    ensures d == d2 && m == m2
    decreases d
  {
    PatternSeps(d, m);
    PatternSeps(d2, m2);
    if d == 1 || d2 == 1 {
      assert Pattern(1, m) == "*" + m && Pattern(1, m2) == "*" + m2;
      assert m == Pattern(1, m)[1..] && m2 == Pattern(1, m2)[1..];
    } else {
      PatternStep(d, m);
      PatternStep(d2, m2);
      assert Pattern(d - 1, m) == Pattern(d, m)[2..];
      assert Pattern(d2 - 1, m2) == Pattern(d2, m2)[2..];
      PatternInjective(d - 1, m, d2 - 1, m2);
    }
  }

  /** `os.path.isdir("")` is false: the empty path is never a directory. */
  predicate IsDirSound(fs: FileSystem)
  {
    "" !in fs.isDir
  }

  /** The parent directory of every hit, in order, duplicates kept. */
  function Parents(hits: seq<string>): seq<string>
  {
    seq(|hits|, i requires 0 <= i < |hits| => DropLast(hits[i]))
  }

  /** The glob hits at depth `d`, marker by marker in list order. */
  function MarkerHits(fs: FileSystem, root: string, markers: seq<string>, d: nat): seq<string>
    requires d >= 1
    decreases |markers|
  {
    if |markers| == 0 then []
    else MarkerHits(fs, root, markers[..|markers| - 1], d) + fs.glob(root, Pattern(d, markers[|markers| - 1]))
  }

  /** The projects found at depth `d`. */
  function Level(fs: FileSystem, root: string, markers: seq<string>, d: nat): seq<string>
    requires d >= 1
  {
    Parents(MarkerHits(fs, root, markers, d))
  }

  /** The projects of depths 1 to `hi`, in increasing depth. */
  function Levels(fs: FileSystem, root: string, markers: seq<string>, hi: nat): seq<string>
    decreases hi
  {
    if hi == 0 then [] else Levels(fs, root, markers, hi - 1) + Level(fs, root, markers, hi)
  }

  /** `_find_projects`: add depth `cur` to the accumulator, then stop at the
      last depth, stop early when not eager and something was found, or go
      one level deeper. */
  function Search(fs: FileSystem, root: string, markers: seq<string>, depth: nat, eager: bool,
                  cur: nat, acc: seq<string>): seq<string>
    requires 1 <= cur <= depth
    decreases depth - cur
  {
    var acc' := acc + Level(fs, root, markers, cur);
    if cur == depth then acc'
    else if acc' != [] && !eager then acc'
    else Search(fs, root, markers, depth, eager, cur + 1, acc')
  }

  /** `find_projects`: nothing for a root that is not a directory, otherwise
      the search from depth 1 under the root with one trailing separator
      stripped. */
  function Projects(fs: FileSystem, rootDir: string, markers: seq<string>, depth: nat, eager: bool): seq<string>
    requires depth >= 1
  {
    if rootDir !in fs.isDir then [] else Search(fs, StripSep(rootDir), markers, depth, eager, 1, [])
  }

  /** On a real filesystem the search never starts from the empty path, so
      `_remove_path_sep` only ever indexes a non-empty root. */
  lemma EmptyRootFindsNothing(fs: FileSystem, rootDir: string, markers: seq<string>, depth: nat, eager: bool)
    requires IsDirSound(fs) && depth >= 1
    ensures Projects(fs, rootDir, markers, depth, eager) != [] ==> rootDir != "" && rootDir in fs.isDir
  {
  }

  lemma ParentsAppend(a: seq<string>, b: seq<string>)
    ensures Parents(a + b) == Parents(a) + Parents(b)
  {
    assert forall i :: 0 <= i < |a| + |b| ==> Parents(a + b)[i] == (Parents(a) + Parents(b))[i];
  }

  /** The innermost loop of `_find_projects`: append the parent of every
      hit, in order. */
  method AppendParents(hits: seq<string>, acc: seq<string>) returns (found: seq<string>)
    ensures found == acc + Parents(hits)
  {
    found := acc;
    var j := 0;
    while j < |hits|
      invariant 0 <= j <= |hits|
      invariant found == acc + Parents(hits[..j])
    {
      found := found + [DropLast(hits[j])];
      assert hits[..j + 1] == hits[..j] + [hits[j]];
      ParentsAppend(hits[..j], [hits[j]]);
      j := j + 1;
    }
    assert hits[..j] == hits;
  }

  /** One depth of `_find_projects`: for each marker in order, glob and
      append the parents of the hits. */
  method AppendLevel(fs: FileSystem, root: string, markers: seq<string>, d: nat, acc: seq<string>)
    returns (found: seq<string>)
    requires d >= 1
    ensures found == acc + Level(fs, root, markers, d)
  {
    found := acc;
    var i := 0;
    while i < |markers|
      invariant 0 <= i <= |markers|
      invariant found == acc + Parents(MarkerHits(fs, root, markers[..i], d))
    {
      var hits := fs.glob(root, Pattern(d, markers[i]));
      found := AppendParents(hits, found);
      assert markers[..i + 1][..i] == markers[..i];
      ParentsAppend(MarkerHits(fs, root, markers[..i], d), hits);
      i := i + 1;
    }
    assert markers[..i] == markers;
  }

  /** `find_projects` as the source runs it: for each depth, for each marker,
      for each glob hit, append the hit's parent; after each depth return at
      the last depth, or early when not eager and the list is non-empty. */
  method FindProjects(fs: FileSystem, rootDir: string, rootMarkers: seq<string>, depth: nat, eager: bool)
    returns (found: seq<string>)
    requires depth >= 1
    ensures found == Projects(fs, rootDir, rootMarkers, depth, eager)
    ensures rootDir !in fs.isDir ==> found == []
  {
    if rootDir !in fs.isDir {
      return [];
    }
    var root := StripSep(rootDir);
    found := [];
    var cur := 1;
    while true
      invariant 1 <= cur <= depth
      invariant Search(fs, root, rootMarkers, depth, eager, cur, found) == Projects(fs, rootDir, rootMarkers, depth, eager)
      decreases depth - cur
    {
      found := AppendLevel(fs, root, rootMarkers, cur, found);
      if cur == depth {
        return;
      }
      if found != [] && !eager {
        return;
      }
      cur := cur + 1;
    }
  }

  // ----- Depth termination -----

  lemma {:induction false} EagerSearch(fs: FileSystem, root: string, markers: seq<string>, depth: nat, cur: nat)
    requires 1 <= cur <= depth
    ensures Search(fs, root, markers, depth, true, cur, Levels(fs, root, markers, cur - 1)) == Levels(fs, root, markers, depth)
    decreases depth - cur
  {
    if cur < depth {
      EagerSearch(fs, root, markers, depth, cur + 1);
    }
  }

  /** An eager search visits every depth from 1 to `depth`: its result is
      every depth's projects, in increasing depth, markers in list order,
      duplicates kept. */
  lemma ProjectsEager(fs: FileSystem, rootDir: string, markers: seq<string>, depth: nat)
    requires depth >= 1
    ensures Projects(fs, rootDir, markers, depth, true)
         == if rootDir in fs.isDir then Levels(fs, StripSep(rootDir), markers, depth) else []
  {
    if rootDir in fs.isDir {
      EagerSearch(fs, StripSep(rootDir), markers, depth, 1);
    }
  }

  /** The first depth from `cur` on that finds something, or `depth`. */
  function FirstProductive(fs: FileSystem, root: string, markers: seq<string>, depth: nat, cur: nat): (k: nat)
    requires 1 <= cur <= depth
    ensures cur <= k <= depth
    ensures Level(fs, root, markers, k) != [] || k == depth
    ensures forall d :: cur <= d < k ==> Level(fs, root, markers, d) == []
    decreases depth - cur
  {
    if Level(fs, root, markers, cur) != [] || cur == depth then cur
    else FirstProductive(fs, root, markers, depth, cur + 1)
  }

  lemma {:induction false} LazySearch(fs: FileSystem, root: string, markers: seq<string>, depth: nat, cur: nat)
    requires 1 <= cur <= depth
    ensures Search(fs, root, markers, depth, false, cur, []) == Level(fs, root, markers, FirstProductive(fs, root, markers, depth, cur))
    decreases depth - cur
  {
    assert [] + Level(fs, root, markers, cur) == Level(fs, root, markers, cur);
    if cur < depth && Level(fs, root, markers, cur) == [] {
      LazySearch(fs, root, markers, depth, cur + 1);
    }
  }

  /** A non-eager search returns the projects of the first depth that has
      any (every shallower depth has none) and searches no deeper; with no
      project within `depth` it returns the empty last depth. */
  lemma ProjectsLazy(fs: FileSystem, rootDir: string, markers: seq<string>, depth: nat)
    requires depth >= 1 && rootDir in fs.isDir
    ensures var root := StripSep(rootDir);
            var k := FirstProductive(fs, root, markers, depth, 1);
            && Projects(fs, rootDir, markers, depth, false) == Level(fs, root, markers, k)
            && (forall d :: 1 <= d < k ==> Level(fs, root, markers, d) == [])
            && (Level(fs, root, markers, k) != [] || k == depth)
  {
    LazySearch(fs, StripSep(rootDir), markers, depth, 1);
  }

  // ----- Where the results come from -----

  lemma {:induction false} InMarkerHits(fs: FileSystem, root: string, markers: seq<string>, d: nat, h: string)
    requires d >= 1 && h in MarkerHits(fs, root, markers, d)
    ensures exists m :: m in markers && h in fs.glob(root, Pattern(d, m))
    decreases |markers|
  {
    var n := |markers|;
    var front := MarkerHits(fs, root, markers[..n - 1], d);
    if h in front {
      InMarkerHits(fs, root, markers[..n - 1], d, h);
      var m :| m in markers[..n - 1] && h in fs.glob(root, Pattern(d, m));
      assert m in markers;
    } else {
      assert markers[n - 1] in markers;
    }
  }

  lemma InLevel(fs: FileSystem, root: string, markers: seq<string>, d: nat, r: string)
    requires d >= 1 && r in Level(fs, root, markers, d)
    ensures exists m, h :: m in markers && h in fs.glob(root, Pattern(d, m)) && r == DropLast(h)
  {
    var hits := MarkerHits(fs, root, markers, d);
    var i :| 0 <= i < |hits| && Level(fs, root, markers, d)[i] == r;
    InMarkerHits(fs, root, markers, d, hits[i]);
  }

  lemma {:induction false} InSearch(fs: FileSystem, root: string, markers: seq<string>, depth: nat, eager: bool,
                                    cur: nat, acc: seq<string>, r: string)
    requires 1 <= cur <= depth && r in Search(fs, root, markers, depth, eager, cur, acc)
    ensures r in acc || exists d :: cur <= d <= depth && r in Level(fs, root, markers, d)
    decreases depth - cur
  {
    var acc' := acc + Level(fs, root, markers, cur);
    if cur < depth && !(acc' != [] && !eager) {
      InSearch(fs, root, markers, depth, eager, cur + 1, acc', r);
    }
  }

  /** Every project found is the parent of a glob hit for some marker at
      some depth from 1 to `depth`, under the root with one trailing
      separator stripped. */
  lemma ProjectsAreHitParents(fs: FileSystem, rootDir: string, markers: seq<string>, depth: nat, eager: bool, r: string)
    requires depth >= 1 && r in Projects(fs, rootDir, markers, depth, eager)
    ensures rootDir in fs.isDir
    ensures exists d, m, h :: 1 <= d <= depth && m in markers
              && h in fs.glob(StripSep(rootDir), Pattern(d, m)) && r == DropLast(h)
  {
    var root := StripSep(rootDir);
    InSearch(fs, root, markers, depth, eager, 1, [], r);
    var d :| 1 <= d <= depth && r in Level(fs, root, markers, d);
    InLevel(fs, root, markers, d, r);
  }

  /** With a sound glob, a project found `d` levels deep is the parent of a
      path exactly `d` segments below the root whose last segment ends with
      a marker; below a non-empty root, the project is then `d - 1` segments
      below the root and the project, `/` and that last segment rebuild the
      hit. */
  lemma ProjectShape(fs: FileSystem, rootDir: string, markers: seq<string>, depth: nat, eager: bool, r: string)
    requires depth >= 1 && GlobSound(fs) && r in Projects(fs, rootDir, markers, depth, eager)
    requires NormalRoot(StripSep(rootDir)) && forall m | m in markers :: PlainMarker(m)
    ensures exists d, m, h :: 1 <= d <= depth && m in markers && IsHit(StripSep(rootDir), d, m, h) && r == DropLast(h)
              && (StripSep(rootDir) != "" ==>
                    && r + [Sep] + LastSegment(h) == h
                    && EndsWith(LastSegment(h), m)
                    && |Split(r, Sep)| == |RootParts(StripSep(rootDir))| + d - 1
                    && Split(r, Sep)[..|RootParts(StripSep(rootDir))|] == RootParts(StripSep(rootDir)))
  {
    var root := StripSep(rootDir);
    ProjectsAreHitParents(fs, rootDir, markers, depth, eager, r);
    var d, m, h :| 1 <= d <= depth && m in markers && h in fs.glob(root, Pattern(d, m)) && r == DropLast(h);
    assert IsHit(root, d, m, h);
    if root != "" {
      var parts := Split(h, Sep);
      var base := RootParts(root);
      assert |base| >= 1;
      DropLastParent(h);
      assert Split(r, Sep) == parts[..|parts| - 1];
      assert parts[..|parts| - 1][..|base|] == parts[..|base|];
    }
  }
  /** A filesystem with one project two levels below the directory `r`:
      `r/a`, marked by `r/a/.git`. */
  function TwoLevelFs(): FileSystem
  {
    FileSystem({"r"}, (root: string, pattern: string) =>
      if root == "r" && pattern == Pattern(2, ".git") then ["r/a/.git"] else [])
  }

  /** `r/a/.git` splits into `r`, `a` and `.git`. */
  lemma TwoLevelSplit()
    ensures Split("r/a/.git", Sep) == ["r", "a", ".git"]
  {
    SplitSepFreeString(".git", Sep);
    SplitAfterPiece("a", Sep, ".git");
    assert "a/.git" == "a" + [Sep] + ".git";
    SplitAfterPiece("r", Sep, "a/.git");
    assert "r/a/.git" == "r" + [Sep] + "a/.git";
  }

  /** `r/a/.git` lies two levels below `r` and ends with `.git`. */
  lemma TwoLevelHit()
    ensures IsHit("r", 2, ".git", "r/a/.git")
  {
    SplitSepFreeString("r", Sep);
    TwoLevelSplit();
  }

  /** The glob of `TwoLevelFs` meets `GlobSound`: a sound glob can report a
      hit below the first level. */
  lemma TwoLevelFsSound()
    ensures GlobSound(TwoLevelFs())
  {
    var fs := TwoLevelFs();
    forall root, d, marker, h | 1 <= d && NormalRoot(root) && PlainMarker(marker) && h in fs.glob(root, Pattern(d, marker))
      ensures IsHit(root, d, marker, h)
    {
      assert root == "r" && Pattern(d, marker) == Pattern(2, ".git") && h == "r/a/.git";
      assert Sep !in marker;
      assert Sep !in ".git";
      PatternInjective(d, marker, 2, ".git");
      TwoLevelHit();
    }
  }

  /** The eager search of `r` for `.git` in `TwoLevelFs` to depth 3 finds
      only `r/a`, the parent of the depth-2 hit. */
  lemma TwoLevelLevels()
    ensures Levels(TwoLevelFs(), "r", [".git"], 3) == ["r/a"]
  {
    var fs := TwoLevelFs();
    assert Sep !in ".git";
    PatternSeps(1, ".git");
    PatternSeps(2, ".git");
    assert |Pattern(3, ".git")| == 9 && |Pattern(2, ".git")| == 7 by {
      PatternStep(3, ".git");
      PatternStep(2, ".git");
      assert Pattern(1, ".git") == "*" + ".git";
    }
    assert MarkerHits(fs, "r", [".git"], 1) == [];
    assert MarkerHits(fs, "r", [".git"], 2) == ["r/a/.git"];
    assert MarkerHits(fs, "r", [".git"], 3) == [];
    TwoLevelSplit();
    assert Split("r/a/.git", Sep)[..2] == ["r", "a"];
    assert Join(["r", "a"], Sep) == "r" + [Sep] + Join(["a"], Sep);
    assert DropLast("r/a/.git") == "r/a";
    assert Level(fs, "r", [".git"], 2) == ["r/a"];
    assert Levels(fs, "r", [".git"], 1) == [];
  }

  /** With the default depth and eagerness, searching `r` for `.git` in
      `TwoLevelFs`, a filesystem whose glob is sound, finds exactly the
      depth-2 project `r/a`. */
  lemma TwoLevelFound()
    ensures GlobSound(TwoLevelFs()) && NormalRoot("r") && PlainMarker(".git")
    ensures Projects(TwoLevelFs(), "r", [".git"], DefaultDepth, DefaultEager) == ["r/a"]
  {
    TwoLevelFsSound();
    SplitSepFreeString("r", Sep);
    ProjectsEager(TwoLevelFs(), "r", [".git"], 3);
    TwoLevelLevels();
  }
}

=== FILE: session_name.dfy ===
/** `TmuxDirFacade.dir_to_session_name`: the tmux session name for a project
    directory is its shortest trailing run of `/`-segments that is non-empty
    and not already a project key, with every `.` turned into `-` (tmux does
    not accept dots in session names). The project keys come from the listed
    project directories, which are passed in as an argument. */
module SessionName {

  import opened Paths
  import opened Wrappers

  /** `ProjectDir`: a project's name and the directory its session starts in. */
  datatype ProjectDir = ProjectDir(name: string, startDirectory: string)

  /** The segment before the last one, `path.split(sep)[-2]`; a path with
      fewer than two segments has none (an `IndexError` in the source). */
  function SecondLast(path: string): (k: Option<string>)
    ensures k.Some? <==> Sep in path
    ensures k.Some? ==> Sep !in k.value
  {
    var parts := Split(path, Sep);
    SplitSepFree(path, Sep);
    SplitCount(path);
    if |parts| < 2 then None else Some(parts[|parts| - 2])
  }

  /** True when every listed path has a second-to-last segment. */
  predicate AllKeyed(listed: seq<string>)
  {
    forall i :: 0 <= i < |listed| ==> SecondLast(listed[i]).Some?
  }

  /** `projects_dict`: each listed path, in order, stored under its
      second-to-last segment, so a later path overwrites an earlier one with
      the same key; `None` when some path has no such segment. */
  function ProjectsDict(listed: seq<string>): Option<map<string, ProjectDir>>
    decreases |listed|
  {
    if |listed| == 0 then Some(map[])
    else
      var last := listed[|listed| - 1];
      match ProjectsDict(listed[..|listed| - 1])
      case None => None
      case Some(projects) =>
        match SecondLast(last)
        case None => None
        case Some(name) => Some(projects[name := ProjectDir(name, last)])
  }

  /** The index of the last listed path whose key is `name`. */
  ghost predicate LastWith(listed: seq<string>, name: string, j: int)
  {
    0 <= j < |listed| && SecondLast(listed[j]) == Some(name)
    && forall i :: j < i < |listed| ==> SecondLast(listed[i]) != Some(name)
  }

  /** `projects_dict` fails exactly when some listed path has a single
      segment. */
  lemma {:induction false} ProjectsDictFails(listed: seq<string>)
    ensures ProjectsDict(listed).Some? <==> AllKeyed(listed)
    decreases |listed|
  {
    if |listed| > 0 {
      var n := |listed|;
      var front := listed[..n - 1];
      ProjectsDictFails(front);
      assert forall i :: 0 <= i < n - 1 ==> front[i] == listed[i];
    }
  }

  /** The keys of `projects_dict` are exactly the second-to-last segments
      of the listed paths. */
  lemma {:induction false} ProjectsDictKeys(listed: seq<string>)
    requires ProjectsDict(listed).Some?
    ensures forall name :: name in ProjectsDict(listed).value <==>
              exists i :: 0 <= i < |listed| && SecondLast(listed[i]) == Some(name)
    decreases |listed|
  {
    if |listed| > 0 {
      var n := |listed|;
      var front := listed[..n - 1];
      ProjectsDictKeys(front);
      var projects := ProjectsDict(listed).value;
      var key := SecondLast(listed[n - 1]).value;
      assert projects.Keys == ProjectsDict(front).value.Keys + {key};
      forall name | exists i :: 0 <= i < n && SecondLast(listed[i]) == Some(name)
        ensures name in projects
      {
        var i :| 0 <= i < n && SecondLast(listed[i]) == Some(name);
        if i < n - 1 {
          assert front[i] == listed[i];
        }
      }
      forall name | name in projects
        ensures exists i :: 0 <= i < n && SecondLast(listed[i]) == Some(name)
      {
        if name != key {
          var i :| 0 <= i < n - 1 && SecondLast(front[i]) == Some(name);
          assert front[i] == listed[i];
        }
      }
    }
  }

  /** Each key of `projects_dict` holds a project of that name starting in
      the last listed path with that key: later paths overwrite earlier
      ones. */
  lemma {:induction false} ProjectsDictLastWins(listed: seq<string>)
    requires ProjectsDict(listed).Some?
    ensures var projects := ProjectsDict(listed).value;
            forall name :: name in projects ==>
              projects[name].name == name
              && exists j :: LastWith(listed, name, j) && projects[name].startDirectory == listed[j]
    decreases |listed|
  {
    if |listed| > 0 {
      var n := |listed|;
      var front := listed[..n - 1];
      ProjectsDictLastWins(front);
      var projects := ProjectsDict(listed).value;
      var before := ProjectsDict(front).value;
      var key := SecondLast(listed[n - 1]).value;
      assert projects == before[key := ProjectDir(key, listed[n - 1])];
      forall name | name in projects
        ensures projects[name].name == name
        ensures exists j :: LastWith(listed, name, j) && projects[name].startDirectory == listed[j]
      {
        if name == key {
          assert LastWith(listed, name, n - 1);
        } else {
          var j :| LastWith(front, name, j) && before[name].startDirectory == front[j];
          assert LastWith(listed, name, j);
        }
      }
    }
  }

  /** `replace_dots`: `s.replace(".", "-")`, one character for one. */
  function ReplaceDots(s: string): (r: string)
    ensures |r| == |s| && '.' !in r
    ensures forall i :: 0 <= i < |s| ==> r[i] == (if s[i] == '.' then '-' else s[i])
    decreases |s|
  {
    if |s| == 0 then ""
    else [if s[0] == '.' then '-' else s[0]] + ReplaceDots(s[1..])
  }

  /** The candidate made of the last `k` segments, `sep.join(parts[-k:])`. */
  function Candidate(parts: seq<string>, k: nat): string
    requires k <= |parts|
  {
    Join(parts[|parts| - k..], Sep)
  }

  /** A candidate is taken when it is non-empty and not a project key. */
  predicate Free(parts: seq<string>, keys: set<string>, k: nat)
    requires k <= |parts|
  {
    Candidate(parts, k) != "" && Candidate(parts, k) !in keys
  }

  /** The loop over `range(-1, -n, -1)` with its early return: the smallest
      `k` from `from` up to, but not including, the number of segments whose
      candidate is free, if any. */
  function FirstFree(parts: seq<string>, keys: set<string>, from: nat): (r: Option<nat>)
    requires from <= |parts|
    ensures r.Some? ==> from <= r.value < |parts| && Free(parts, keys, r.value)
                        && forall j :: from <= j < r.value ==> !Free(parts, keys, j)
    ensures r.None? ==> forall j :: from <= j < |parts| ==> !Free(parts, keys, j)
    decreases |parts| - from
  {
    if from >= |parts| then None
    else if Free(parts, keys, from) then Some(from)
    else FirstFree(parts, keys, from + 1)
  }

  /** The name chosen for `dirPath` against a set of project keys. */
  function NameFor(dirPath: string, keys: set<string>): string
  {
    var parts := Split(dirPath, Sep);
    match FirstFree(parts, keys, 1)
    case Some(k) => ReplaceDots(Candidate(parts, k))
    case None => ReplaceDots(dirPath)
  }

  /** `dir_to_session_name` given what `list_dirs()` returned; `None` when
      building the project keys fails. */
  function DirToSessionName(dirPath: string, listed: seq<string>): Option<string>
  {
    match ProjectsDict(listed)
    case None => None
    case Some(projects) => Some(NameFor(dirPath, projects.Keys))
  }

  /** The name fails exactly when some listed path has a single segment. */
  lemma DirToSessionNameFails(dirPath: string, listed: seq<string>)
    ensures DirToSessionName(dirPath, listed).None? <==> !AllKeyed(listed)
  {
    ProjectsDictFails(listed);
  }

  /** A session name has no dot and is as long as either the chosen
      candidate or the whole path. */
  lemma NameHasNoDots(dirPath: string, keys: set<string>)
    ensures '.' !in NameFor(dirPath, keys)
    ensures (exists k: nat :: 1 <= k < |Split(dirPath, Sep)|
                         && |NameFor(dirPath, keys)| == |Candidate(Split(dirPath, Sep), k)|)
            || |NameFor(dirPath, keys)| == |dirPath|
  {
    var parts := Split(dirPath, Sep);
    match FirstFree(parts, keys, 1)
    case Some(k) =>
      var c := Candidate(parts, k);
      assert NameFor(dirPath, keys) == ReplaceDots(c);
      assert 1 <= k < |Split(dirPath, Sep)|
             && |NameFor(dirPath, keys)| == |Candidate(Split(dirPath, Sep), k)|;
    case None =>
      assert NameFor(dirPath, keys) == ReplaceDots(dirPath);
  }

  /** When some suffix of one to `n - 1` segments is free, the name is the
      shortest free one with its dots replaced. */
  lemma NameIsShortestFree(dirPath: string, keys: set<string>, k: nat)
    requires var parts := Split(dirPath, Sep);
             1 <= k < |parts| && Free(parts, keys, k)
    ensures var parts := Split(dirPath, Sep);
            exists m :: (1 <= m <= k && Free(parts, keys, m)
                         && (forall j :: 1 <= j < m ==> !Free(parts, keys, j))
                         && NameFor(dirPath, keys) == ReplaceDots(Candidate(parts, m)))
  {
    var parts := Split(dirPath, Sep);
    var r := FirstFree(parts, keys, 1);
    assert r.Some?;
    assert r.value <= k;
  }

  /** When every suffix of one to `n - 1` segments is empty or a key, the
      name is the whole path with its dots replaced. */
  lemma NameFallsBack(dirPath: string, keys: set<string>)
    requires forall j :: 1 <= j < |Split(dirPath, Sep)| ==> !Free(Split(dirPath, Sep), keys, j)
    ensures NameFor(dirPath, keys) == ReplaceDots(dirPath)
  {
    var parts := Split(dirPath, Sep);
    var r := FirstFree(parts, keys, 1);
  }

  /** The whole path is never checked against the keys: a single-segment
      path names its session after itself even when that name is a key, and
      so does `x/y` when both `y` and `x/y` are keys. */
  lemma WholePathNotChecked()
    ensures NameFor("work", {"work"}) == "work"
    ensures NameFor("x/y", {"y", "x/y"}) == "x/y"
  {
    SplitSepFreeString("work", Sep);
    assert "x/y" == "x" + [Sep] + "y";
    SplitAfterPiece("x", Sep, "y");
    SplitSepFreeString("y", Sep);
    var parts := Split("x/y", Sep);
    assert parts == ["x", "y"];
    assert Candidate(parts, 1) == "y";
    assert !Free(parts, {"y", "x/y"}, 1);
    NameFallsBack("x/y", {"y", "x/y"});
  }

  /** The segments of an absolute three-level path. */
  lemma SplitAbsolute(x: string, y: string, z: string)
    requires Sep !in x && Sep !in y && Sep !in z
    ensures Split([Sep] + x + [Sep] + y + [Sep] + z, Sep) == ["", x, y, z]
  {
    var yz := y + [Sep] + z;
    var xyz := x + [Sep] + yz;
    SplitSepFreeString(z, Sep);
    SplitAfterPiece(y, Sep, z);
    assert Split(yz, Sep) == [y, z];
    SplitAfterPiece(x, Sep, yz);
    assert Split(xyz, Sep) == [x, y, z];
    SplitAfterPiece("", Sep, xyz);
    assert [Sep] + x + [Sep] + y + [Sep] + z == "" + [Sep] + xyz;
  }

  /** A project `/x/y/z` is named after its own last segment `z` whenever
      no project key equals `z`. */
  lemma NameOfAbsolute(x: string, y: string, z: string, keys: set<string>)
    requires Sep !in x && Sep !in y && Sep !in z && z != "" && z !in keys
    ensures NameFor([Sep] + x + [Sep] + y + [Sep] + z, keys) == ReplaceDots(z)
  {
    var parts := Split([Sep] + x + [Sep] + y + [Sep] + z, Sep);
    SplitAbsolute(x, y, z);
    assert parts[|parts| - 1..] == [z];
    assert Candidate(parts, 1) == z;
  }

  /** The keys of two absolute three-level project directories are the
      names of their parents. */
  lemma KeysOfTwo(a: string, x: string, b: string, y: string, z: string)
    requires Sep !in a && Sep !in x && Sep !in b && Sep !in y && Sep !in z
    ensures var listed := [[Sep] + a + [Sep] + x + [Sep] + z, [Sep] + b + [Sep] + y + [Sep] + z];
            ProjectsDict(listed).Some? && ProjectsDict(listed).value.Keys == {x, y}
  {
    var listed := [[Sep] + a + [Sep] + x + [Sep] + z, [Sep] + b + [Sep] + y + [Sep] + z];
    SplitAbsolute(a, x, z);
    SplitAbsolute(b, y, z);
    assert SecondLast(listed[0]) == Some(x);
    assert SecondLast(listed[1]) == Some(y);
    assert listed[..1] == [listed[0]];
    assert [listed[0]][..0] == [];
    assert ProjectsDict([listed[0]]) == Some(map[x := ProjectDir(x, listed[0])]);
    assert ProjectsDict(listed) == Some(map[x := ProjectDir(x, listed[0])][y := ProjectDir(y, listed[1])]);
  }

  /** A listed entry is already a project directory, so its key is the name
      of the directory above the project: two projects with the same name
      under different parents both get that name as their session name. */
  lemma SameNameSharesSession()
    ensures DirToSessionName("/a/x/proj", ["/a/x/proj", "/b/y/proj"]) == Some("proj")
    ensures DirToSessionName("/b/y/proj", ["/a/x/proj", "/b/y/proj"]) == Some("proj")
  {
    assert "/a/x/proj" == [Sep] + "a" + [Sep] + "x" + [Sep] + "proj";
    assert "/b/y/proj" == [Sep] + "b" + [Sep] + "y" + [Sep] + "proj";
    KeysOfTwo("a", "x", "b", "y", "proj");
    NameOfAbsolute("a", "x", "proj", {"x", "y"});
    NameOfAbsolute("b", "y", "proj", {"x", "y"});
    assert ReplaceDots("proj") == "proj";
  }

  /** An empty candidate is never chosen: the name is empty only for the
      empty path. */
  lemma NameEmptyOnlyForEmptyPath(dirPath: string, keys: set<string>)
    ensures NameFor(dirPath, keys) == "" <==> dirPath == ""
  {
    var parts := Split(dirPath, Sep);
    var r := FirstFree(parts, keys, 1);
    if dirPath == "" {
      assert parts == [""];
    } else if r.Some? {
      assert |NameFor(dirPath, keys)| == |Candidate(parts, r.value)|;
    }
  }

  /** Every candidate is a trailing piece of the path: the path ends with it,
      right after a separator. */
  lemma {:induction false} CandidateIsSuffix(dirPath: string, k: nat)
    requires 1 <= k < |Split(dirPath, Sep)|
    ensures var c := Candidate(Split(dirPath, Sep), k);
            |c| < |dirPath| && dirPath[|dirPath| - |c| - 1] == Sep && dirPath[|dirPath| - |c|..] == c
  {
    var parts := Split(dirPath, Sep);
    var n := |parts|;
    var front := parts[..n - k];
    var back := parts[n - k..];
    assert parts == front + back;
    JoinSplit(dirPath, Sep);
    JoinConcat(front, back, Sep);
  }
}

=== FILE: text.dfy ===
/** The two Python string splits the session listing is parsed with:
    `str.splitlines()` (Lines) and the argument-less `str.split()` (Words),
    each with the round trip that makes it the inverse of the obvious
    rendering. */
module Text {

  import Paths

  /** Python's `str.isspace()` for one character: the ASCII whitespace, the
      four information separators, NEL, NO-BREAK SPACE and the Unicode space
      separators, line separator and paragraph separator. */
  predicate IsSpace(c: char)
  {
    var n := c as int;
    (9 <= n <= 13) || (28 <= n <= 32) || n == 0x85 || n == 0xA0 || n == 0x1680
    || (0x2000 <= n <= 0x200A) || n == 0x2028 || n == 0x2029 || n == 0x202F
    || n == 0x205F || n == 0x3000
  }

  /** The line boundaries of Python's `str.splitlines()` (`\r\n` counts as one). */
  predicate IsLineBreak(c: char)
  {
    var n := c as int;
    (10 <= n <= 13) || (28 <= n <= 30) || n == 0x85 || n == 0x2028 || n == 0x2029
  }

  predicate SpaceFree(w: string)
  {
    forall i :: 0 <= i < |w| ==> !IsSpace(w[i])
  }

  predicate BreakFree(l: string)
  {
    forall i :: 0 <= i < |l| ==> !IsLineBreak(l[i])
  }

  /** The longest prefix of `s` without whitespace. */
  function Token(s: string): (w: string)
    ensures |w| <= |s| && w == s[..|w|] && SpaceFree(w)
    ensures |w| < |s| ==> IsSpace(s[|w|])
    decreases |s|
  {
    if |s| == 0 || IsSpace(s[0]) then [] else [s[0]] + Token(s[1..])
  }

  /** Python's `s.split()`: the maximal runs of non-whitespace, in order. */
  function Words(s: string): (ws: seq<string>)
    ensures forall i :: 0 <= i < |ws| ==> ws[i] != [] && SpaceFree(ws[i])
    decreases |s|
  {
    if |s| == 0 then []
    else if IsSpace(s[0]) then Words(s[1..])
    else
      var w := Token(s);
      [w] + Words(s[|w|..])
  }

  /** The token of a whitespace-free word followed by whitespace or nothing
      is the word. */
  lemma {:induction false} TokenOfWord(w: string, rest: string)
    requires SpaceFree(w)
    requires |rest| == 0 || IsSpace(rest[0])
    ensures Token(w + rest) == w
    decreases |w|
  {
    if |w| > 0 {
      assert (w + rest)[1..] == w[1..] + rest;
      TokenOfWord(w[1..], rest);
      assert [w[0]] + w[1..] == w;
    } else {
      assert w + rest == rest;
    }
  }

  /** Non-empty whitespace-free words joined by single spaces split back
      into the same words. */
  lemma {:induction false} WordsJoin(ws: seq<string>)
    requires forall i :: 0 <= i < |ws| ==> ws[i] != [] && SpaceFree(ws[i])
    ensures Words(Paths.Join(ws, ' ')) == ws
    decreases |ws|
  {
    if |ws| == 1 {
      var w := ws[0];
      TokenOfWord(w, []);
      assert w + [] == w;
      assert w[|w|..] == [];
    } else if |ws| > 1 {
      var w := ws[0];
      var tail := Paths.Join(ws[1..], ' ');
      var s := Paths.Join(ws, ' ');
      assert s == w + ([' '] + tail);
      TokenOfWord(w, [' '] + tail);
      assert s[|w|..] == [' '] + tail;
      assert ([' '] + tail)[1..] == tail;
      WordsJoin(ws[1..]);
      assert ws == [w] + ws[1..];
    }
  }

  /** Python's argument-less `s.strip()`: `s` without its leading and
      trailing whitespace. */
  function Strip(s: string): (r: string)
    ensures |r| <= |s|
    ensures r != [] ==> !IsSpace(r[0]) && !IsSpace(r[|r| - 1])
    decreases |s|
  {
    if |s| > 0 && IsSpace(s[0]) then Strip(s[1..])
    else if |s| > 0 && IsSpace(s[|s| - 1]) then Strip(s[..|s| - 1])
    else s
  }

  /** Everything of `s` before index `i` and from index `j` on is
      whitespace. */
  predicate SpaceOutside(s: string, i: nat, j: nat)
    requires i <= j <= |s|
  {
    && (forall k :: 0 <= k < i ==> IsSpace(s[k]))
    && (forall k :: j <= k < |s| ==> IsSpace(s[k]))
  }

  /** Whitespace in front widens the space before the slice by one. */
  lemma SpaceOutsideFront(s: string, i: nat, j: nat)
    requires |s| > 0 && IsSpace(s[0]) && i <= j <= |s| - 1 && SpaceOutside(s[1..], i, j)
    ensures SpaceOutside(s, i + 1, j + 1)
  {
    forall k | 0 < k < i + 1 ensures IsSpace(s[k]) {
      assert s[k] == s[1..][k - 1];
    }
    forall k | j + 1 <= k < |s| ensures IsSpace(s[k]) {
      assert s[k] == s[1..][k - 1];
    }
  }

  /** Whitespace at the back widens the space after the slice by one. */
  lemma SpaceOutsideBack(s: string, i: nat, j: nat)
    requires |s| > 0 && IsSpace(s[|s| - 1]) && i <= j <= |s| - 1 && SpaceOutside(s[..|s| - 1], i, j)
    ensures SpaceOutside(s, i, j)
  {
    forall k | 0 <= k < i ensures IsSpace(s[k]) {
      assert s[k] == s[..|s| - 1][k];
    }
    forall k | j <= k < |s| - 1 ensures IsSpace(s[k]) {
      assert s[k] == s[..|s| - 1][k];
    }
  }

  /** The bounds of the slice `Strip` keeps. */
  lemma {:induction false} StripBounds(s: string) returns (i: nat, j: nat)
    ensures i <= j <= |s| && Strip(s) == s[i..j] && SpaceOutside(s, i, j)
    decreases |s|
  {
    if |s| > 0 && IsSpace(s[0]) {
      var t := s[1..];
      var i', j' := StripBounds(t);
      SpaceOutsideFront(s, i', j');
      assert t[i'..j'] == s[i' + 1..j' + 1];
      i, j := i' + 1, j' + 1;
    } else if |s| > 0 && IsSpace(s[|s| - 1]) {
      var t := s[..|s| - 1];
      i, j := StripBounds(t);
      SpaceOutsideBack(s, i, j);
      assert t[i..j] == s[i..j];
    } else {
      i, j := 0, |s|;
    }
  }

  /** `Strip` removes a whitespace prefix and a whitespace suffix and nothing
      else: its result is the slice between them. */
  lemma StripSlice(s: string)
    ensures exists i, j :: 0 <= i <= j <= |s| && Strip(s) == s[i..j] && SpaceOutside(s, i, j)
  {
    var i, j := StripBounds(s);
  }

  /** A whitespace character after the text does not change its token. */
  lemma {:induction false} TokenSnocSpace(s: string, c: char)
    requires IsSpace(c)
    ensures Token(s + [c]) == Token(s)
    decreases |s|
  {
    if |s| > 0 && !IsSpace(s[0]) {
      assert (s + [c])[1..] == s[1..] + [c];
      TokenSnocSpace(s[1..], c);
    } else if |s| == 0 {
      assert s + [c] == [c];
    }
  }

  /** A whitespace character after the text does not change its words. */
  lemma {:induction false} WordsSnocSpace(s: string, c: char)
    requires IsSpace(c)
    ensures Words(s + [c]) == Words(s)
    decreases |s|
  {
    if |s| == 0 {
      assert s + [c] == [c];
      assert [c][1..] == [];
    } else if IsSpace(s[0]) {
      assert (s + [c])[1..] == s[1..] + [c];
      WordsSnocSpace(s[1..], c);
    } else {
      var w := Token(s);
      TokenSnocSpace(s, c);
      assert (s + [c])[|w|..] == s[|w|..] + [c];
      WordsSnocSpace(s[|w|..], c);
    }
  }

  /** `line.strip().split()` is `line.split()`: the strip changes no word. */
  lemma {:induction false} WordsStrip(s: string)
    ensures Words(Strip(s)) == Words(s)
    decreases |s|
  {
    if |s| > 0 && IsSpace(s[0]) {
      WordsStrip(s[1..]);
    } else if |s| > 0 && IsSpace(s[|s| - 1]) {
      var front := s[..|s| - 1];
      WordsStrip(front);
      assert s == front + [s[|s| - 1]];
      WordsSnocSpace(front, s[|s| - 1]);
    }
  }

  /** The index of the first line boundary in `s`, or `|s|` if none. */
  function LineEnd(s: string): (i: nat)
    ensures i <= |s| && BreakFree(s[..i])
    ensures i < |s| ==> IsLineBreak(s[i])
    decreases |s|
  {
    if |s| == 0 || IsLineBreak(s[0]) then 0 else 1 + LineEnd(s[1..])
  }

  /** Python's `s.splitlines()`: the text between line boundaries; a final
      boundary does not start another line and `"\r\n"` is one boundary. */
  function Lines(s: string): (ls: seq<string>)
    ensures forall k :: 0 <= k < |ls| ==> BreakFree(ls[k])
    decreases |s|
  {
    if |s| == 0 then []
    else
      var i := LineEnd(s);
      if i == |s| then [s]
      else
        var next := if s[i] == '\r' && i + 1 < |s| && s[i + 1] == '\n' then i + 2 else i + 1;
        [s[..i]] + Lines(s[next..])
  }

  /** Each line followed by `"\n"`, the way a command prints its lines. */
  function Terminated(ls: seq<string>): string
    decreases |ls|
  {
    if |ls| == 0 then "" else ls[0] + "\n" + Terminated(ls[1..])
  }

  lemma {:induction false} LineEndOfLine(l: string, rest: string)
    requires BreakFree(l)
    requires |rest| > 0 && IsLineBreak(rest[0])
    ensures LineEnd(l + rest) == |l|
    decreases |l|
  {
    if |l| > 0 {
      assert (l + rest)[1..] == l[1..] + rest;
      LineEndOfLine(l[1..], rest);
    } else {
      assert l + rest == rest;
    }
  }

  /** Break-free lines, each terminated by a newline, split back into the
      same lines. */
  lemma {:induction false} LinesTerminated(ls: seq<string>)
    requires forall k :: 0 <= k < |ls| ==> BreakFree(ls[k])
    ensures Lines(Terminated(ls)) == ls
    decreases |ls|
  {
    if |ls| > 0 {
      var l := ls[0];
      var tail := Terminated(ls[1..]);
      var s := Terminated(ls);
      assert s == l + ("\n" + tail);
      LineEndOfLine(l, "\n" + tail);
      assert s[|l|] == '\n';
      assert s[..|l|] == l;
      assert s[|l| + 1..] == tail;
      LinesTerminated(ls[1..]);
      assert ls == [l] + ls[1..];
    }
  }
}

=== FILE: tmux_session_facade.dfy ===
/** `TmuxSessionFacade`: the tmux commands the plugin issues and how it reads
    their results. Running a command is an oracle `run` from the argument
    vector to what the process did; every operation returns the commands it
    issued, in order, together with its value or the exception it raised. */
module TmuxSessionFacade {

  import opened Wrappers
  import Paths
  import Text

  type Argv = seq<string>

  /** What running one command gave: its standard output and error, or an
      `OSError` (for instance, no `tmux` binary) with its message. */
  datatype Process = Exited(stdout: string, stderr: string) | OsFailure(reason: string)

  /** The exceptions raised: `TmuxFacadeException`, its subclass
      `TmuxFacadeBinException` (an `except TmuxFacadeException` catches
      both), and the `ValueError` of `int()` on a creation time that is not
      an integer literal, which is neither. */
  datatype Error = FacadeError(message: string) | BinError(message: string) | IntValueError(literal: string)

  /** The commands issued, in order, and the value returned or the exception
      raised. */
  datatype Outcome<T> = Outcome(issued: seq<Argv>, result: Result<T, Error>)

  /** `TmuxSession`: a session's name, its creation time as tmux prints it
      (seconds since the epoch) and its attached-clients field. */
  datatype TmuxSession = TmuxSession(name: string, createdEpoch: string, attached: string)

  const ListSessionsArgv: Argv :=
    ["tmux", "list-sessions", "-F", "#{session_name} #{session_created} #{session_attached}"]
  const VersionArgv: Argv := ["tmux", "-V"]
  /** The default `vim_args` of `create`. */
  const DefaultVimArgs: string := "e ."

  const ParseFailureMessage: string := "Failed to parse tmux list-sessions"
  const NotAttachedMessage: string :=
    "Please, make sure you have a tmux session attached before trying to switch."
  const NoTmuxMessage: string := "tmux not found in $PATH. Make sure tmux is installed."

  /** `_run_cmd`: issue one command; anything on standard error, or an
      operating-system failure, becomes a `TmuxFacadeException` with that
      text; otherwise the standard output is the value. */
  function RunCmd(run: Argv -> Process, argv: Argv): (o: Outcome<string>)
    ensures o.issued == [argv]
    ensures o.result.Ok? <==> run(argv).Exited? && run(argv).stderr == ""
    ensures o.result.Ok? ==> o.result.value == run(argv).stdout
    ensures o.result.Err? ==> o.result.error.FacadeError?
    ensures o.result.Err? && run(argv).Exited? ==> o.result.error.message == run(argv).stderr
    ensures o.result.Err? && run(argv).OsFailure? ==> o.result.error.message == run(argv).reason
  {
    match run(argv)
    case OsFailure(reason) => Outcome([argv], Err(FacadeError(reason)))
    case Exited(out, err) => if err != "" then Outcome([argv], Err(FacadeError(err))) else Outcome([argv], Ok(out))
  }

  predicate IsDigit(c: char)
  {
    '0' <= c <= '9'
  }

  /** Decimal digits with single underscores between them. */
  predicate DigitGroups(s: string)
  {
    |s| > 0 && IsDigit(s[0]) && IsDigit(s[|s| - 1])
    && (forall i :: 0 <= i < |s| ==> IsDigit(s[i]) || s[i] == '_')
    && (forall i :: 0 <= i < |s| - 1 ==> s[i] == '_' ==> s[i + 1] != '_')
  }

  /** A word `int()` reads in base 10: digit groups after an optional
      sign. */
  predicate IntLiteral(s: string)
  {
    DigitGroups(s) || (|s| > 0 && (s[0] == '+' || s[0] == '-') && DigitGroups(s[1..]))
  }

  /** One line of the listing: `TmuxFacadeException` unless it has
      exactly three whitespace-separated fields; then the session, whose
      constructor converts the creation time with `int()`. */
  function ParseLine(line: string): Result<TmuxSession, Error>
  {
    var words := Text.Words(Text.Strip(line));
    if |words| != 3 then Err(FacadeError(ParseFailureMessage))
    else if !IntLiteral(words[1]) then Err(IntValueError(words[1]))
    else Ok(TmuxSession(words[0], words[1], words[2]))
  }

  /** A line parses exactly when it has three fields and the second is an
      integer literal; the session holds those fields in order; otherwise
      the error is the three-field message or the `ValueError` of the
      second field. */
  lemma ParseLineFields(line: string)
    ensures var r := ParseLine(line);
            && (r.Ok? <==> |Text.Words(line)| == 3 && IntLiteral(Text.Words(line)[1]))
            && (r.Ok? ==> [r.value.name, r.value.createdEpoch, r.value.attached] == Text.Words(line))
            && (r.Err? && |Text.Words(line)| != 3 ==> r.error == FacadeError(ParseFailureMessage))
            && (r.Err? && |Text.Words(line)| == 3 ==> r.error == IntValueError(Text.Words(line)[1]))
  {
    Text.WordsStrip(line);
  }

  /** The loop of `sessions()` over the lines: each parsed line is stored
      under its name, a later line overwriting an earlier one; a line that
      does not parse raises, and so the first such line decides the error. */
  function ParseLines(lines: seq<string>): Result<map<string, TmuxSession>, Error>
    decreases |lines|
  {
    if |lines| == 0 then Ok(map[])
    else
      match ParseLines(lines[..|lines| - 1])
      case Err(e) => Err(e)
      case Ok(sessions) =>
        match ParseLine(lines[|lines| - 1])
        case Err(e) => Err(e)
        case Ok(s) => Ok(sessions[s.name := s])
  }

  /** What `sessions()` returns for the output of the listing command. */
  function SessionsOf(run: Argv -> Process): Result<map<string, TmuxSession>, Error>
  {
    match RunCmd(run, ListSessionsArgv).result
    case Err(e) => Err(e)
    case Ok(out) => ParseLines(Text.Lines(out))
  }

  /** `sessions()`: list the sessions and parse the output line by line. */
  method Sessions(run: Argv -> Process) returns (o: Outcome<map<string, TmuxSession>>)
    ensures o.issued == [ListSessionsArgv]
    ensures o.result == SessionsOf(run)
  {
    var listed := RunCmd(run, ListSessionsArgv);
    if listed.result.Err? {
      return Outcome(listed.issued, Err(listed.result.error));
    }
    var lines := Text.Lines(listed.result.value);
    var sessions: map<string, TmuxSession> := map[];
    var i := 0;
    while i < |lines|
      invariant 0 <= i <= |lines|
      invariant ParseLines(lines[..i]) == Ok(sessions)
    {
      assert lines[..i + 1][..i] == lines[..i];
      var words := Text.Words(Text.Strip(lines[i]));
      if |words| != 3 {
        assert ParseLines(lines[..i + 1]) == Err(FacadeError(ParseFailureMessage));
        ParseFailsAt(lines, i + 1);
        return Outcome([ListSessionsArgv], Err(FacadeError(ParseFailureMessage)));
      }
      if !IntLiteral(words[1]) {
        assert ParseLines(lines[..i + 1]) == Err(IntValueError(words[1]));
        ParseFailsAt(lines, i + 1);
        return Outcome([ListSessionsArgv], Err(IntValueError(words[1])));
      }
      sessions := sessions[words[0] := TmuxSession(words[0], words[1], words[2])];
      i := i + 1;
    }
    assert lines[..i] == lines;
    return Outcome([ListSessionsArgv], Ok(sessions));
  }

  /** A line that does not parse. */
  predicate BadLine(lines: seq<string>, i: int)
  {
    0 <= i < |lines| && ParseLine(lines[i]).Err?
  }

  /** Line `i` is the first line that does not parse. */
  predicate FirstBad(lines: seq<string>, i: int)
  {
    BadLine(lines, i) && forall j :: 0 <= j < i ==> !BadLine(lines, j)
  }

  /** Once a prefix of the lines fails, the whole listing fails with the
      prefix's error: no later line is read. */
  lemma {:induction false} ParseFailsAt(lines: seq<string>, k: nat)
    requires k <= |lines| && ParseLines(lines[..k]).Err?
    ensures ParseLines(lines) == ParseLines(lines[..k])
    decreases |lines|
  {
    if k < |lines| {
      var front := lines[..|lines| - 1];
      assert front[..k] == lines[..k];
      ParseFailsAt(front, k);
    } else {
      assert lines[..k] == lines;
    }
  }

  /** The listing fails exactly when some line does not parse, and then with
      the error of the first such line: the three-field message or the
      `ValueError` of its creation time. */
  lemma {:induction false} ParseFailsIff(lines: seq<string>)
    ensures ParseLines(lines).Err? <==> exists i :: BadLine(lines, i)
    ensures ParseLines(lines).Err? ==>
              exists i :: FirstBad(lines, i) && ParseLines(lines).error == ParseLine(lines[i]).error
    decreases |lines|
  {
    if |lines| > 0 {
      var n := |lines|;
      var front := lines[..n - 1];
      ParseFailsIff(front);
      assert forall i :: 0 <= i < n - 1 ==> front[i] == lines[i];
      if ParseLines(front).Err? {
        var i :| FirstBad(front, i) && ParseLines(front).error == ParseLine(front[i]).error;
        forall j | 0 <= j < i ensures !BadLine(lines, j) {
          assert !BadLine(front, j);
        }
        assert BadLine(lines, i);
      } else if ParseLine(lines[n - 1]).Err? {
        forall j | 0 <= j < n - 1 ensures !BadLine(lines, j) {
          assert !BadLine(front, j);
        }
        assert FirstBad(lines, n - 1);
      } else {
        forall i | 0 <= i < n ensures !BadLine(lines, i) {
          if i < n - 1 {
            assert !BadLine(front, i);
          }
        }
      }
    }
  }

  /** The session parsed from line `j` is the last one with its name. */
  ghost predicate LastNamed(lines: seq<string>, name: string, j: int)
  {
    0 <= j < |lines| && Named(lines, j, name)
    && forall i :: j < i < |lines| ==> !Named(lines, i, name)
  }

  /** Line `i` parses to a session called `name`. */
  predicate Named(lines: seq<string>, i: int, name: string)
  {
    0 <= i < |lines| && ParseLine(lines[i]).Ok? && ParseLine(lines[i]).value.name == name
  }

  /** A successful listing holds exactly the names of its lines. */
  lemma {:induction false} ParsedNames(lines: seq<string>)
    requires ParseLines(lines).Ok?
    ensures forall name :: name in ParseLines(lines).value <==> exists i :: Named(lines, i, name)
    decreases |lines|
  {
    if |lines| > 0 {
      var n := |lines|;
      var front := lines[..n - 1];
      ParsedNames(front);
      var s := ParseLine(lines[n - 1]).value;
      var sessions := ParseLines(lines).value;
      assert sessions.Keys == ParseLines(front).value.Keys + {s.name};
      assert Named(lines, n - 1, s.name);
      forall name | exists i :: Named(lines, i, name)
        ensures name in sessions
      {
        var i :| Named(lines, i, name);
        if i < n - 1 {
          assert Named(front, i, name);
        }
      }
      forall name | name in sessions
        ensures exists i :: Named(lines, i, name)
      {
        if name != s.name {
          var i :| Named(front, i, name);
          assert Named(lines, i, name);
        }
      }
    }
  }

  /** The last line named `name` stays the last when a line with another
      name follows. */
  lemma LastNamedExtends(lines: seq<string>, name: string, j: int)
    requires |lines| > 0 && LastNamed(lines[..|lines| - 1], name, j)
    requires !Named(lines, |lines| - 1, name)
    ensures LastNamed(lines, name, j)
  {
    var front := lines[..|lines| - 1];
    assert lines[j] == front[j];
    forall i | j < i < |lines| ensures !Named(lines, i, name) {
      if i < |lines| - 1 {
        assert lines[i] == front[i];
        assert !Named(front, i, name);
      }
    }
  }

  /** Each session of a successful listing is stored under its own name and
      comes from the last line with that name. */
  lemma {:induction false} ParsedLastWins(lines: seq<string>)
    requires ParseLines(lines).Ok?
    ensures var sessions := ParseLines(lines).value;
            forall name :: name in sessions ==>
              sessions[name].name == name
              && exists j :: LastNamed(lines, name, j) && sessions[name] == ParseLine(lines[j]).value
    decreases |lines|
  {
    if |lines| > 0 {
      var n := |lines|;
      var front := lines[..n - 1];
      ParsedLastWins(front);
      var before := ParseLines(front).value;
      var s := ParseLine(lines[n - 1]).value;
      var sessions := ParseLines(lines).value;
      assert sessions == before[s.name := s];
      forall name | name in sessions
        ensures sessions[name].name == name
        ensures exists j :: LastNamed(lines, name, j) && sessions[name] == ParseLine(lines[j]).value
      {
        if name == s.name {
          assert LastNamed(lines, name, n - 1);
        } else {
          var j :| LastNamed(front, name, j) && before[name] == ParseLine(front[j]).value;
          assert lines[j] == front[j];
          assert !Named(lines, n - 1, name);
          LastNamedExtends(lines, name, j);
        }
      }
    }
  }

  /** A field tmux can print and the parser can read back: non-empty, with
      no whitespace (which also excludes line boundaries). */
  predicate PlainField(f: string)
  {
    f != [] && Text.SpaceFree(f)
  }

  /** A session as tmux lists it: plain fields, the creation time an
      integer literal. */
  predicate PlainSession(s: TmuxSession)
  {
    PlainField(s.name) && PlainField(s.createdEpoch) && IntLiteral(s.createdEpoch) && PlainField(s.attached)
  }

  /** One line of `list-sessions -F "#{session_name} #{session_created}
      #{session_attached}"`. */
  function FormatLine(s: TmuxSession): string
  {
    Paths.Join([s.name, s.createdEpoch, s.attached], ' ')
  }

  /** The whole listing tmux prints for `sessions`, one line each. */
  function Listing(sessions: seq<TmuxSession>): string
  {
    Text.Terminated(seq(|sessions|, i requires 0 <= i < |sessions| => FormatLine(sessions[i])))
  }

  /** The sessions by name, a later one replacing an earlier one. */
  function ByName(sessions: seq<TmuxSession>): map<string, TmuxSession>
    decreases |sessions|
  {
    if |sessions| == 0 then map[]
    else
      var s := sessions[|sessions| - 1];
      ByName(sessions[..|sessions| - 1])[s.name := s]
  }

  lemma JoinThree(a: string, b: string, c: string)
    ensures Paths.Join([a, b, c], ' ') == a + [' '] + b + [' '] + c
  {
    assert [a, b, c][1..] == [b, c];
    assert [b, c][1..] == [c];
    assert Paths.Join([c], ' ') == c;
    assert Paths.Join([b, c], ' ') == b + [' '] + c;
  }

  /** A formatted line of plain fields parses back to its session. */
  lemma ParseFormatLine(s: TmuxSession)
    requires PlainSession(s)
    ensures ParseLine(FormatLine(s)) == Ok(s)
  {
    var ws := [s.name, s.createdEpoch, s.attached];
    Text.WordsStrip(FormatLine(s));
    Text.WordsJoin(ws);
  }

  /** No formatted line of plain fields contains a line boundary. */
  lemma FormatLineBreakFree(s: TmuxSession)
    requires PlainSession(s)
    ensures Text.BreakFree(FormatLine(s))
  {
    JoinThree(s.name, s.createdEpoch, s.attached);
    var l := FormatLine(s);
    forall i | 0 <= i < |l| ensures !Text.IsLineBreak(l[i]) {
      if i < |s.name| {
        assert l[i] == s.name[i];
      } else if i == |s.name| {
        assert l[i] == ' ';
      } else if i < |s.name| + 1 + |s.createdEpoch| {
        assert l[i] == s.createdEpoch[i - |s.name| - 1];
      } else if i == |s.name| + 1 + |s.createdEpoch| {
        assert l[i] == ' ';
      } else {
        assert l[i] == s.attached[i - |s.name| - 2 - |s.createdEpoch|];
      }
    }
  }

  /** Parsing the formatted lines of plain sessions gives them by name. */
  lemma {:induction false} ParseFormattedLines(sessions: seq<TmuxSession>)
    requires forall i :: 0 <= i < |sessions| ==> PlainSession(sessions[i])
    ensures ParseLines(seq(|sessions|, i requires 0 <= i < |sessions| => FormatLine(sessions[i])))
            == Ok(ByName(sessions))
    decreases |sessions|
  {
    if |sessions| > 0 {
      var n := |sessions|;
      var lines := seq(n, i requires 0 <= i < n => FormatLine(sessions[i]));
      var front := sessions[..n - 1];
      ParseFormattedLines(front);
      assert lines[..n - 1] == seq(n - 1, i requires 0 <= i < n - 1 => FormatLine(front[i]));
      ParseFormatLine(sessions[n - 1]);
    }
  }

  /** Round trip: what tmux prints for plain sessions, `sessions()` reads
      back as those sessions by name, the last of each name winning. */
  lemma ListingRoundTrip(sessions: seq<TmuxSession>)
    requires forall i :: 0 <= i < |sessions| ==> PlainSession(sessions[i])
    ensures ParseLines(Text.Lines(Listing(sessions))) == Ok(ByName(sessions))
  {
    var lines := seq(|sessions|, i requires 0 <= i < |sessions| => FormatLine(sessions[i]));
    forall k | 0 <= k < |lines| ensures Text.BreakFree(lines[k]) {
      FormatLineBreakFree(sessions[k]);
    }
    Text.LinesTerminated(lines);
    ParseFormattedLines(sessions);
  }

  /** `is_attached`: the `TMUX` environment variable is set and non-empty. */
  predicate IsAttached(env: map<string, string>)
  {
    "TMUX" in env && env["TMUX"] != ""
  }

  /** `create`: a detached session named `sessionName` starting in
      `startDirectory` and running the editor, passed `-c vimArgs` when
      those are non-empty. */
  method Create(run: Argv -> Process, sessionName: string, vimBinPath: string,
                startDirectory: string, vimArgs: string)
    returns (o: Outcome<()>)
    ensures |o.issued| == 1 && |o.issued[0]| >= 8
    ensures o.issued[0][..8] == ["tmux", "new-session", "-d", "-c", startDirectory, "-s", sessionName, vimBinPath]
    ensures vimArgs == "" ==> o.issued[0] == o.issued[0][..8]
    ensures vimArgs != "" ==> o.issued[0][8..] == ["-c", vimArgs]
    ensures o.result.Ok? <==> RunCmd(run, o.issued[0]).result.Ok?
    ensures o.result.Err? ==> o.result.error == RunCmd(run, o.issued[0]).result.error
  {
    var cmd := ["tmux", "new-session", "-d", "-c", startDirectory, "-s", sessionName, vimBinPath];
    if vimArgs != "" {
      cmd := cmd + ["-c", vimArgs];
    }
    var ran := RunCmd(run, cmd);
    if ran.result.Err? {
      return Outcome(ran.issued, Err(ran.result.error));
    }
    return Outcome(ran.issued, Ok(()));
  }

  /** `switch`: refuse, issuing nothing, unless attached; otherwise switch
      the client to the session. */
  function Switch(run: Argv -> Process, env: map<string, string>, sessionName: string): (o: Outcome<()>)
    ensures !IsAttached(env) ==> o == Outcome([], Err(FacadeError(NotAttachedMessage)))
    ensures IsAttached(env) ==>
              o.issued == [["tmux", "switch-client", "-t", sessionName]]
              && (o.result.Ok? <==> RunCmd(run, o.issued[0]).result.Ok?)
              && (o.result.Err? ==> o.result.error == RunCmd(run, o.issued[0]).result.error)
  {
    if !IsAttached(env) then Outcome([], Err(FacadeError(NotAttachedMessage)))
    else
      var ran := RunCmd(run, ["tmux", "switch-client", "-t", sessionName]);
      Outcome(ran.issued, if ran.result.Err? then Err(ran.result.error) else Ok(()))
  }

  /** `kill`: kill the session by name, whether or not it exists. */
  function Kill(run: Argv -> Process, sessionName: string): (o: Outcome<()>)
    ensures o.issued == [["tmux", "kill-session", "-t", sessionName]]
    ensures o.result.Ok? <==> RunCmd(run, o.issued[0]).result.Ok?
    ensures o.result.Err? ==> o.result.error == RunCmd(run, o.issued[0]).result.error
  {
    var ran := RunCmd(run, ["tmux", "kill-session", "-t", sessionName]);
    Outcome(ran.issued, if ran.result.Err? then Err(ran.result.error) else Ok(()))
  }

  /** `_check_tmux_bin` (run by the constructor): ask tmux for its version;
      any failure becomes the binary-not-found exception. */
  function CheckTmuxBin(run: Argv -> Process): (o: Outcome<bool>)
    ensures o.issued == [VersionArgv]
    ensures o.result.Ok? <==> run(VersionArgv).Exited? && run(VersionArgv).stderr == ""
    ensures o.result.Ok? ==> o.result.value
    ensures o.result.Err? ==> o.result.error == BinError(NoTmuxMessage)
  {
    var ran := RunCmd(run, VersionArgv);
    Outcome(ran.issued, if ran.result.Err? then Err(BinError(NoTmuxMessage)) else Ok(true))
  }
}

=== FILE: wrappers.dfy ===
/** Option and Result, the two failure-carrying values the model uses for
    the source's exceptions and absent values. */
module Wrappers {

  datatype Option<+T> = None | Some(value: T)

  datatype Result<+T, +E> = Ok(value: T) | Err(error: E)
}
